=== FILE: README.md ===
# MyianaChia account and audit core, in Dafny

This project models the account and administration core of the MyianaChia
Flask application (`app.py`). That core covers:

- registering explorers (`Explorador`) and entrepreneurs (`Emprendedor`);
- logging in and out, and the role-based redirect of `/BotonLog`;
- bootstrapping the administrator through `/crear_admin`;
- the administrator's edit and delete routes, each of which writes one row
  of the `LogAccion` audit trail;
- the figures of the administrator dashboard.

The database is a value of type `Models.Store`. It holds one sequence per
table (users, explorers, entrepreneurs, audit log), in insertion order.
Every route is a pure function:

- The writing routes (register, `/crear_admin`, the edits and deletes) take
  a store and a submitted form. They return an `Outcome`: the store the
  route leaves behind, plus a success value or an `Error`.
- `/login` returns a `LoginResult`: a refusal with its `Error`, or the new
  session and the redirect target.
- `/logout` maps a session to a session.
- `/BotonLog` maps a store and a session to a redirect target or an `Error`.

The error cases are:

- a missing required field (HTTP 400);
- a duplicate username or email;
- a birth date that does not parse;
- a missing row (`get_or_404`);
- wrong login credentials, where the login form is shown again with one
  generic message;
- a UNIQUE violation at commit;
- a handler that dereferences a missing user.

`Models.Valid` is the invariant the schema and the routes keep together:

- ids are unique;
- username, email and NIT are unique;
- every profile has an owner of the matching role, and no user owns two
  profiles of one kind;
- the log holds only the four action labels the routes write.

Every route is proved to preserve it.

Modules follow the program's structure:

- `Text`: Python `strip`, `join`, `repr` and `str(date)`; SQLite `lower`
  and `LIKE`.
- `Tables`: `first()`, `count()`, deletes, SQLite's next row id.
- `Models`: entities, store and invariant.
- `Auth`: `/login`, `/logout`, `/BotonLog`, `/crear_admin`.
- `Registration`: `/register`.
- `Admin`: the edit and delete routes.
- `Dashboard`: `/admin_dashboard`.
- `Charts`: how each route moves the dashboard's figures.

Behaviours of the code that the proofs make explicit:

- **Orphan user.** `/register` commits the user row before it parses the
  birth date. A bad date therefore leaves a user without a profile and
  without an audit entry (`Registration.BadDateLeavesOrphan`). An
  entrepreneur NIT already in use does the same, because the second commit
  fails.
- **Wrong announced password.** `/crear_admin` announces the password
  `admin123`, but the account is created with `admin`. The announced
  credentials are refused and the real ones reach the administrator
  dashboard (`Auth.AnnouncedAdminPassword`).
- **Role totals and profiles disagree.** The dashboard's role totals compare
  the lower-cased role, while registration compares the role exactly.
  Registering with role `EXPLORADOR` raises the explorer total but creates
  no explorer profile (`Charts.UpperCaseRoleCountedWithoutProfile`).
- **Unlisted plans are not counted.** An entrepreneur whose plan is not one
  of the four labels is bucketed as `Sin plan`, with a lower-case `p`. That
  is not a label, so the plan values add up to fewer than the entrepreneurs
  (`Dashboard.PlanValuesTotal`).
- **No uncounted or double-counted actions.** The action chart counts
  `LIKE '%keyword%'` matches. Every label the routes write matches exactly
  one keyword, so the three counts partition the log
  (`Dashboard.ActionKeyword`, `Dashboard.ActionValuesTotal`).

## Model

| member | source | states |
|---|---|---|
| Text.Strip | app.py:130-131 | `strip()` leaves no whitespace at either end and never lengthens the text |
| Text.StripSlice | app.py:130-131 | the stripped text is the slice of the input between an all-whitespace head and an all-whitespace tail |
| Text.StripIdempotent | app.py:215 | stripping an already stripped identifier changes nothing |
| Text.Join | app.py:415 | `", ".join` of no parts is empty, of one part is that part, and otherwise starts with the first part |
| Text.JoinAppend | app.py:409-415 | joining one more part appends the separator and that part, so the change list reads as every entry in order, separated by `, ` |
| Text.LikeMissingCharRefutes | app.py:324-326 | `LIKE '%p%'` is false when neither case of a pattern character occurs where any placement would need it |
| Text.ReadPaddedNat | app.py:491 | the zero-padded numerals of `str(date)` read back as the number they print |
| Text.ShowNatFits | app.py:491 | a number below `10^w` prints in at most `w` digits, so padding it to `w` gives exactly `w` characters |
| Models.ShowDateReads | app.py:491 | the text of a date that `datetime.date` can hold has ten characters, and its year, month and day parts read back as that date's numbers |
| Models.ShowDateInjective | app.py:487-491 | two dates that `datetime.date` can hold print alike only if they are equal, so a changed birth date always shows in the edit log |
| Text.PyRepr | app.py:439 | `repr` wraps the text in its quote: double when the text has a single quote and no double quote, single otherwise. Under the strict reader for that quote, the body between the quotes reads back as the text. Text needing no escape is written unchanged, and that includes the quote that is not the delimiter (`"O'Neill"`) |
| Text.ReadReprBodyRoundTrip | app.py:439 | the escaped body of a literal reads back as the text under the strict reader: the delimiting quote and the backslash are escaped with a backslash; tab, newline and return get `\t`, `\n` and `\r`; other ASCII control characters and DEL get `\xHH` |
| Text.ReadReprBodyExact | app.py:439 | the strict reader accepts only what `repr` writes: any body that reads back as some text is that text's escaped body. It rejects a raw delimiting quote, a raw control character, a raw DEL, and `\xHH` for a character that has a shorter spelling |
| Text.PyReprPinned | app.py:439 | `PyRepr`'s contract leaves exactly one result: any quoted text whose body reads back as `s` under the strict reader is `PyRepr(s)` |
| Tables.FirstWhere | app.py:136 | `first()` returns the earliest matching row; it returns none exactly when no row matches |
| Tables.Count | app.py:287-289 | `count()` is at most the table size; it is zero iff no row matches and full iff every row matches |
| Tables.CountDisjoint | app.py:288-289 | two conditions no row meets together count at most all rows |
| Tables.NextKey | app.py:24 | a new primary key is larger than every key in use and follows SQLite's max+1 rule |
| Tables.FilterUnique | app.py:375 | deleting rows keeps every UNIQUE column unique |
| Models.FindUser | app.py:118 | `query.get(id)` finds a row with that id, and finds none exactly when no row has it |
| Models.FindUserUnique | app.py:24 | with unique ids, `query.get` returns the row that holds the id |
| Models.AddUserValid | app.py:23-33 | a user with fresh id, username and email keeps the store valid |
| Models.AddEntrepreneurValid | app.py:54-72 | a profile with fresh id and NIT, for a profile-less entrepreneur user, keeps the store valid |
| Models.OwnersPrecede | app.py:44 | on a valid store no profile belongs to a user newer than every user |
| Auth.RoleTarget | app.py:119-124 | `Administrador` and `Emprendedor` get their own dashboards and every other role gets the explorer's, each iff |
| Auth.Login | app.py:212-239 | missing fields are a 400; any other refusal is the bad-credentials answer; login succeeds iff the first user matching the stripped identifier by username or email verifies the password; success records that user in the session and redirects by role |
| Auth.LoginSoleMatch | app.py:219-223 | when at most one user answers to the identifier, login succeeds iff some user answering to it verifies the password |
| Auth.Logout | app.py:242-245 | logout removes only `user_id` from the session |
| Auth.Dispatch | app.py:115-125 | without a session user it redirects to login; a missing user is a server error (iff) and no other failure occurs; otherwise it redirects to that user's role dashboard |
| Auth.LoginThenDispatch | app.py:115-125 | after a login, `/BotonLog` sends the user where the login did |
| Auth.CreateAdmin | app.py:254-267 | an existing `admin` changes nothing; a taken admin email fails the commit; otherwise exactly one administrator row is added, and its password is `admin` |
| Auth.CreateAdminIdempotent | app.py:255-257 | bootstrapping twice leaves the same store as bootstrapping once |
| Auth.CreateAdminPreservesValid | app.py:259-266 | bootstrapping keeps the store valid |
| Auth.CreatedAdminAnswers | app.py:259-266 | the new account is the first to answer to `admin`, and has the administrator role and the digest of `admin` |
| Auth.AnnouncedAdminPassword | app.py:264-267 | logging in with the announced `admin123` is refused; with `admin` it reaches the administrator dashboard |
| Registration.ClashFound | app.py:136 | the duplicate query finds a row iff the username or the email is already used |
| Registration.CommitUser | app.py:140-144 | the committed user has the stripped username and email, the submitted role, a digest verifying the password and an id above all others; nothing else changes |
| Registration.InsertExplorer | app.py:162-173 | exactly one explorer profile is appended for the new user, with an id above all others. Each of its six text columns holds the stripped form field of the same name, and its date is the given one. Nothing else changes |
| Registration.InsertEntrepreneur | app.py:175-193 | the commit fails iff the NIT is already taken, and then nothing changes. Otherwise exactly one entrepreneur profile is appended, with the given date and plan `Sin Plan`. Its personal columns hold the stripped `_emp` form fields, and its business columns (name, NIT, classification, zone, location) hold the stripped fields of the same name |
| Registration.AddProfile | app.py:149-204 | a bad date fails iff the stripped date is non-empty and does not parse; a taken NIT fails iff the role is `Emprendedor`; both failures write nothing. Success adds a profile of the role (none for other roles) with every column filled from the form as the two inserts state, then one `Creación` entry for the user id |
| Registration.Register | app.py:128-207 | missing fields are a 400; a used username or email is refused (iff) with the store unchanged; otherwise the user is committed; a bad date or a taken NIT stops there, and no other failure occurs; success adds one profile filled column by column from the form and one `Creación` entry whose entity id is the new user's id; validity is preserved |
| Registration.BadDateLeavesOrphan | app.py:140-157 | an unparsable date leaves the new user committed, with no profile and no audit entry |
| Registration.FreshExplorerRegisters | app.py:128-204 | a complete form with a fresh username and email, no date and no role registers: one user, one explorer profile filled from the form, and one log entry |
| Registration.RegisterThenLogin | app.py:128-234 | a new user logs in with the submitted username and password and reaches the dashboard of the chosen role, unless an older account has that username as its email |
| Admin.ChangedPositions | app.py:409-413 | the positions where the snapshots differ: exactly those, in increasing order |
| Admin.ChangesEmptyIff | app.py:409-415 | the change list is empty iff the snapshots are equal |
| Admin.NoChangesIff | app.py:415 | the details read `Sin cambios detectados` iff no field changed |
| Admin.OneChange | app.py:409-415 | when one field differs, the details are that field's single `campo: 'antes' → 'después'` entry |
| Admin.ZoneChangeLogged | app.py:384-421 | moving an entrepreneur's zone from `Norte` to `Sur` logs exactly `zona: 'Norte' → 'Sur'` |
| Admin.PatchEntrepreneur | app.py:397-403 | each of the six fields takes the submitted value if present and otherwise keeps the old one; no other column changes |
| Admin.CommitEntrepreneurEdit | app.py:397-424 | a NIT already held by another row fails the commit (iff) with nothing written; otherwise the row is replaced and one `Edición de Emprendedor` entry about it is logged |
| Admin.EditEntrepreneur | app.py:384-427 | a missing id is a 404 (iff); success returns the id and appends exactly one audit entry, with that id as entity and the edit label |
| Admin.EditWithoutFields | app.py:398-421 | a form without the six fields leaves the rows as they were and logs `Cambios: Sin cambios detectados` |
| Admin.ReplaceEntrepreneurValid | app.py:68 | replacing a row with the same keys and a NIT no other row holds keeps the store valid |
| Admin.EditedBirthDate | app.py:472-481 | a missing or empty date keeps the stored one; any other text must parse, and fails iff it does not |
| Admin.PatchExplorer | app.py:465-470 | the five text fields take the submitted value if present; the date is the decided one; no other column changes |
| Admin.CommitExplorerEdit | app.py:483-502 | the patched row replaces the old one and one `Edición de Explorador` entry about it is logged |
| Admin.EditExplorer | app.py:452-510 | a missing id is a 404 (iff); an unparsable date stops the edit (iff) with nothing written; success returns the id and appends one audit entry with that id |
| Admin.DeleteUser | app.py:373-376 | the entry is logged, the user is deleted, and the cascade removes its profiles; every other row stays |
| Admin.DeleteUserValid | app.py:32-33 | deleting a user with its profiles keeps the store valid |
| Admin.DeleteEntrepreneur | app.py:363-379 | a missing id is a 404 and a missing owner a server error (each iff), both with the store unchanged; success logs one `Eliminación` entry under the owner's id, then removes the owner and its profiles |
| Admin.DeleteExplorer | app.py:431-447 | as for entrepreneurs, with the names' tuple `repr` in the details |
| Admin.EntrepreneurOwnerFound | app.py:364-365 | on a valid store, deleting an existing entrepreneur succeeds and returns its owner's id |
| Admin.DeleteEntrepreneurRemovesRow | app.py:363-376 | on a valid store the delete succeeds and no row with the id remains |
| Admin.DeleteExplorerRemovesRow | app.py:431-444 | on a valid store the delete succeeds and no row with the id remains |
| Dashboard.Histogram | app.py:308-311 | each value is the multiplicity of its label among the bucketed values |
| Dashboard.Planes | app.py:307 | the bucketed plans hold each label once per entrepreneur with exactly that plan, and labels in total once per entrepreneur with a listed plan |
| Dashboard.HistogramTotal | app.py:308-311 | over distinct labels, the values add up to the number of items that are labels |
| Dashboard.PlanBucketLabel | app.py:307 | a plan's bucket is a label iff the plan is one, and then it is that plan |
| Dashboard.PlanValuesCount | app.py:302-311 | each plan value counts the entrepreneurs whose plan is exactly that label |
| Dashboard.PlanValuesTotal | app.py:307-311 | the plan values add up to the entrepreneurs with a listed plan, and to all entrepreneurs iff every plan is listed |
| Dashboard.PreferenceValuesCount | app.py:314-319 | each preference value counts the explorers whose preference is exactly that label |
| Dashboard.PreferenceValuesAppend | app.py:314-319 | a new explorer raises only its own preference's value, by one |
| Dashboard.ActionKeyword | app.py:321-326 | each action label the routes write `LIKE`-matches exactly one keyword: `Creación`, `Eliminación`, or `Edición` for both edits |
| Dashboard.AppendActionCounts | app.py:323-329 | logging one action raises the count of its keyword by one and leaves the others |
| Dashboard.ActionValuesTotal | app.py:323-329 | on a log of the routes' actions, the three counts add up to the log's length |
| Dashboard.ActionValuesByKeyword | app.py:323-329 | each keyword's `LIKE` count equals the number of entries whose action falls under it |
| Dashboard.Summarize | app.py:285-329 | total users is the table size; explorer plus entrepreneur totals never exceed it; plan and preference values count exact label matches; on a valid store, the action counts classify every log entry once |
| Charts.RegisterCountsCreation | app.py:198-204 | a successful registration raises `Creación` by one and leaves the other counts |
| Charts.EditEntrepreneurCountsEdit | app.py:418-424 | a successful entrepreneur edit raises `Edición` by one and leaves the other counts |
| Charts.EditExplorerCountsEdit | app.py:496-502 | a successful explorer edit raises `Edición` by one and leaves the other counts |
| Charts.DeleteEntrepreneurCountsDeletion | app.py:368-376 | a successful entrepreneur delete raises `Eliminación` by one and leaves the other counts |
| Charts.DeleteExplorerCountsDeletion | app.py:436-444 | a successful explorer delete raises `Eliminación` by one and leaves the other counts |
| Charts.RegisterCountsPreference | app.py:162-173 | a registered explorer raises the chart at its own preference, if that is a label, and nowhere else |
| Charts.RegisterCountsRole | app.py:288-289 | a registration raises the explorer total iff its role lower-cases to `explorador`, and the entrepreneur total iff it lower-cases to `emprendedor` |
| Charts.UpperCaseRoleCountedWithoutProfile | app.py:162 | registering as `EXPLORADOR` raises the explorer total but adds no explorer profile |

## Left out

- HTTP, routing, templates, redirects and flash messages. Each route returns a target or an `Error`, with no page text.
- The session backend (`flask_session`): a session is a plain value passed in and returned.
- werkzeug password hashing: it is idealised as a collision-free digest that remembers the password. The random salt is a parameter.
- `datetime.strptime`: date parsing is a parameter `parseDate`. Its format is not modelled.
- Timestamps (`created_at`, `LogAccion.fecha`) and ordering the dashboard's log list by date.
- The `user_id` and `tipo_entidad` log columns: no route writes them.
- Failures of a commit other than UNIQUE violations, and the rollback branch of `/editar_explorador` (app.py:506-508). No explorer column is UNIQUE, so a modelled commit of that route never fails.
- Column length limits (`String(80)` and similar): SQLite does not enforce them.
- `Empresa`, `Favorito`, `Visita`, the detail views, and the per-role dashboards beyond their redirect target. They are outside this core.
- The static pages, the `init-db` command and the `__main__` block.
- The rows and log list the dashboard hands to its template: only its computed figures are modelled.
- Row order of `first()` and `query.all()`: the model uses insertion order, which the database does not promise.
- Non-SQLite databases: `LIKE` and `lower()` fold ASCII letters only, as SQLite does without ICU.
- Text.PyRepr: does not model the escaping of non-ASCII non-printable characters, because the names it prints are free text and such characters are not expected in them. It treats every character from the space upward other than DEL as printable and writes it raw, whereas Python escapes the non-printable ones among them (for example U+0085 or U+200B).
- Admin routes have no access check in the source, and anyone may register as `Administrador`. The model adds no checks either.
- Dashboard.Summarize: states the explorer and entrepreneur totals only as a bound. How a registration moves them exactly is stated by `Charts.RegisterCountsRole`.
- Auth.Logout: states only the session keys. Redirecting to the login page is covered by `Auth.LogoutThenDispatch`.

=== FILE: admin.dfy ===
/**
 * The administrator's routes over profiles: `/editar_emprendimiento`,
 * `/eliminar_emprendimiento`, `/editar_explorador` and
 * `/eliminar_explorador`. Each writes exactly one audit entry when it
 * succeeds; an edit records which snapshot fields changed.
 */
module Admin {
  import opened Wrappers
  import opened Text
  import opened Tables
  import opened Models
  import opened Auth

  // ---------------------------------------------------------------------------
  // The change list of an edit
  // ---------------------------------------------------------------------------

  /** The details text when no snapshot field changed. */
  const NoChanges := "Sin cambios detectados"

  /** The positions at which two snapshots differ, in snapshot order. */
  function ChangedPositions(before: seq<Value>, after: seq<Value>): (r: seq<nat>)
    requires |before| == |after|
    ensures forall k :: 0 <= k < |r| ==> r[k] < |before| && before[r[k]] != after[r[k]]
    ensures forall i :: 0 <= i < |before| ==> (before[i] != after[i] <==> i in r)
    ensures forall k, l :: 0 <= k < l < |r| ==> r[k] < r[l]
    decreases |before|
  {
    if |before| == 0 then []
    else
      var n := |before| - 1;
      ChangedPositions(before[..n], after[..n]) + (if before[n] != after[n] then [n] else [])
  }

  /** One entry of the change list: `campo: 'antes' → 'después'`. */
  function Fragment(field: string, was: Value, now: Value): string {
    field + ": '" + Show(was) + "' → '" + Show(now) + "'"
  }

  /** The change list for the snapshot fields named by `fields`. */
  function Changes(fields: seq<string>, before: seq<Value>, after: seq<Value>): seq<string>
    requires |fields| == |before| == |after|
  {
    var pos := ChangedPositions(before, after);
    seq(|pos|, k requires 0 <= k < |pos| => Fragment(fields[pos[k]], before[pos[k]], after[pos[k]]))
  }

  /** The change list joined with `, `, or the fixed text when it is empty. */
  function Details(changes: seq<string>): string {
    if |changes| == 0 then NoChanges else Join(changes, ", ")
  }

  /** Every change entry holds an arrow. */
  lemma FragmentArrow(field: string, was: Value, now: Value)
    ensures '→' in Fragment(field, was, now)
  {
    var a := field + ": '" + Show(was);
    var f := Fragment(field, was, now);
    assert f == a + "' → '" + Show(now) + "'";
    assert f[|a| + 2] == '→';
  }

  /** The change list is empty exactly when the snapshots agree. */
  lemma ChangesEmptyIff(fields: seq<string>, before: seq<Value>, after: seq<Value>)
    requires |fields| == |before| == |after|
    ensures |Changes(fields, before, after)| == 0 <==> before == after
  {
    assert |Changes(fields, before, after)| == |ChangedPositions(before, after)|;
    if before == after {
      NoPositionsWhenEqual(before, after);
    } else {
      SomePositionWhenUnequal(before, after);
    }
  }

  lemma NoPositionsWhenEqual(before: seq<Value>, after: seq<Value>)
    requires |before| == |after| && before == after
    ensures ChangedPositions(before, after) == []
  {
  }

  lemma SomePositionWhenUnequal(before: seq<Value>, after: seq<Value>)
    requires |before| == |after| && before != after
    ensures |ChangedPositions(before, after)| > 0
  {
    var i :| 0 <= i < |before| && before[i] != after[i];
    assert i in ChangedPositions(before, after);
  }

  /**
   * The details read `Sin cambios detectados` exactly when the snapshots
   * agree: a non-empty change list starts with an entry holding an arrow,
   * which the fixed text does not.
   */
  lemma NoChangesIff(fields: seq<string>, before: seq<Value>, after: seq<Value>)
    requires |fields| == |before| == |after|
    ensures Details(Changes(fields, before, after)) == NoChanges <==> before == after
  {
    var changes := Changes(fields, before, after);
    ChangesEmptyIff(fields, before, after);
    if before != after {
      var pos := ChangedPositions(before, after);
      var first := changes[0];
      assert first == Fragment(fields[pos[0]], before[pos[0]], after[pos[0]]);
      FragmentArrow(fields[pos[0]], before[pos[0]], after[pos[0]]);
      ArrowIsNotNoChanges(changes);
    }
  }

  /** A change list whose first entry holds an arrow does not read `Sin cambios detectados`. */
  lemma ArrowIsNotNoChanges(changes: seq<string>)
    requires |changes| > 0 && '→' in changes[0]
    ensures Details(changes) != NoChanges
  {
    var first := changes[0];
    var j :| 0 <= j < |first| && first[j] == '→';
    var r := Join(changes, ", ");
    assert r[j] == first[j];
    assert '→' !in NoChanges;
  }

  // ---------------------------------------------------------------------------
  // Finding a profile by id (`get_or_404`)
  // ---------------------------------------------------------------------------

  /** `t[i]` is the first entrepreneur row with id `id`. */
  ghost predicate EntrepreneurAt(t: seq<Entrepreneur>, id: nat, i: int) {
    && 0 <= i < |t|
    && t[i].id == id
    && forall j :: 0 <= j < i ==> t[j].id != id
  }

  /** `t[i]` is the first explorer row with id `id`. */
  ghost predicate ExplorerAt(t: seq<Explorer>, id: nat, i: int) {
    && 0 <= i < |t|
    && t[i].id == id
    && forall j :: 0 <= j < i ==> t[j].id != id
  }

  function HasEntrepreneurId(id: nat): Entrepreneur -> bool {
    (e: Entrepreneur) => e.id == id
  }

  function HasExplorerId(id: nat): Explorer -> bool {
    (x: Explorer) => x.id == id
  }

  /** Another entrepreneur row already holds `nit`. */
  function NitTakenBy(id: nat, nit: string): Entrepreneur -> bool {
    (e: Entrepreneur) => e.id != id && e.nit == nit
  }

  // ---------------------------------------------------------------------------
  // POST `/editar_emprendimiento/<id>`
  // ---------------------------------------------------------------------------

  /** The business fields the route snapshots, in the order it lists them. */
  const EntrepreneurFields := ["nombre_emprendimiento", "nit", "zona", "ubicacion", "plan", "clasificacion"]

  function EntrepreneurSnapshot(e: Entrepreneur): (r: seq<Value>)
    ensures |r| == |EntrepreneurFields|
  {
    [Str(e.nombreEmprendimiento), Str(e.nit), Str(e.zona), Str(e.ubicacion), Str(e.plan), Str(e.clasificacion)]
  }

  /**
   * Each of the six business fields takes the submitted value when the
   * form has the field, even when it is empty, and keeps its value
   * otherwise. Nothing outside the snapshot changes.
   */
  function PatchEntrepreneur(e: Entrepreneur, form: Form): (r: Entrepreneur)
    ensures forall k :: 0 <= k < |EntrepreneurFields| ==>
      EntrepreneurSnapshot(r)[k] ==
        (if EntrepreneurFields[k] in form then Str(form[EntrepreneurFields[k]]) else EntrepreneurSnapshot(e)[k])
    ensures r.(nombreEmprendimiento := e.nombreEmprendimiento, nit := e.nit, zona := e.zona,
               ubicacion := e.ubicacion, plan := e.plan, clasificacion := e.clasificacion) == e
  {
    e.(nombreEmprendimiento := FormGet(form, "nombre_emprendimiento", e.nombreEmprendimiento),
       nit := FormGet(form, "nit", e.nit),
       zona := FormGet(form, "zona", e.zona),
       ubicacion := FormGet(form, "ubicacion", e.ubicacion),
       plan := FormGet(form, "plan", e.plan),
       clasificacion := FormGet(form, "clasificacion", e.clasificacion))
  }

  function EntrepreneurEditDetails(before: Entrepreneur, after: Entrepreneur): string {
    "Se editaron los datos del emprendimiento '" + after.nombreEmprendimiento + "'. Cambios: "
      + Details(Changes(EntrepreneurFields, EntrepreneurSnapshot(before), EntrepreneurSnapshot(after)))
  }

  /**
   * Patches row `i`, commits, and logs one `Edición de Emprendedor` entry
   * about the profile. The NIT is UNIQUE, so a NIT another row holds makes
   * the commit fail with nothing written.
   */
  function CommitEntrepreneurEdit(st: Store, i: nat, form: Form): (o: Outcome<nat>)
    requires i < |st.entrepreneurs|
    ensures o.result.Failure? ==> o == Outcome(st, Failure(IntegrityError))
    ensures var nit := PatchEntrepreneur(st.entrepreneurs[i], form).nit;
      o.result.Failure? <==> exists e :: e in st.entrepreneurs && e.id != st.entrepreneurs[i].id && e.nit == nit
    ensures o.result.Success? ==>
      var e := st.entrepreneurs[i];
      var after := PatchEntrepreneur(e, form);
      && o.result.value == e.id
      && o.store.users == st.users && o.store.explorers == st.explorers
      && o.store.entrepreneurs == st.entrepreneurs[i := after]
      && o.store.log == st.log + [LogEntry(e.id, ActionEditEntrepreneur, EntrepreneurEditDetails(e, after))]
    ensures Valid(st) ==> Valid(o.store)
  {
    var e := st.entrepreneurs[i];
    var after := PatchEntrepreneur(e, form);
    match FirstWhere(st.entrepreneurs, NitTakenBy(e.id, after.nit))
    case Some(j) =>
      assert st.entrepreneurs[j] in st.entrepreneurs;
      Outcome(st, Failure(IntegrityError))
    case None =>
      assert forall x :: x in st.entrepreneurs && x.id != e.id ==> x.nit != after.nit;
      var edited := st.(entrepreneurs := st.entrepreneurs[i := after]);
      var entry := LogEntry(e.id, ActionEditEntrepreneur, EntrepreneurEditDetails(e, after));
      var st' := edited.(log := st.log + [entry]);
      assert Valid(st) ==> Valid(st') by {
        if Valid(st) {
          ReplaceEntrepreneurValid(st, i, after);
          AppendLogValid(edited, entry);
        }
      }
      Outcome(st', Success(e.id))
  }

  /**
   * POST `/editar_emprendimiento/<id>`: a missing row is a 404; otherwise
   * the row found is patched and the edit logged under the profile's id.
   */
  function EditEntrepreneur(st: Store, id: nat, form: Form): (o: Outcome<nat>)
    ensures o.result == Failure(NotFound) <==> forall e :: e in st.entrepreneurs ==> e.id != id
    ensures o.result.Failure? ==> o.store == st
    ensures o.result.Failure? ==> o.result.error == NotFound || o.result.error == IntegrityError
    ensures o.result != Failure(NotFound) ==>
      exists i :: EntrepreneurAt(st.entrepreneurs, id, i) && o == CommitEntrepreneurEdit(st, i, form)
    ensures o.result.Success? ==>
      && o.result.value == id
      && |o.store.log| == |st.log| + 1 && o.store.log[..|st.log|] == st.log
      && o.store.log[|st.log|].entidadId == id && o.store.log[|st.log|].accion == ActionEditEntrepreneur
    ensures Valid(st) ==> Valid(o.store)
  {
    match FirstWhere(st.entrepreneurs, HasEntrepreneurId(id))
    case None => Outcome(st, Failure(NotFound))
    case Some(i) =>
      assert EntrepreneurAt(st.entrepreneurs, id, i);
      var o := CommitEntrepreneurEdit(st, i, form);
      assert o.result.Success? ==> o.store.log[..|st.log|] == st.log;
      o
  }

  /** Replacing a row by one with the same keys and owner, and a NIT no other row holds, keeps the store valid. */
  lemma ReplaceEntrepreneurValid(st: Store, i: nat, x: Entrepreneur)
    requires Valid(st) && i < |st.entrepreneurs|
    requires x.id == st.entrepreneurs[i].id && x.userId == st.entrepreneurs[i].userId
    requires forall e :: e in st.entrepreneurs && e.id != x.id ==> e.nit != x.nit
    ensures Valid(st.(entrepreneurs := st.entrepreneurs[i := x]))
  {
    var t := st.entrepreneurs;
    forall j | 0 <= j < |t| && j != i
      ensures Nit(t[j]) != Nit(x)
    {
      assert t[j] in t;
      if j < i {
        assert EntrepreneurId(t[j]) != EntrepreneurId(t[i]);
      } else {
        assert EntrepreneurId(t[i]) != EntrepreneurId(t[j]);
      }
    }
    UpdateUnique(t, i, x, EntrepreneurId);
    UpdateUnique(t, i, x, EntrepreneurOwner);
    UpdateUnique(t, i, x, Nit);
    assert t[i] in t;
    forall e | e in t[i := x]
      ensures OwnedBy(st.users, e.userId, RoleEntrepreneur)
    {
      var j :| 0 <= j < |t| && t[i := x][j] == e;
      assert t[j] in t;
    }
  }

  /** An increasing sequence holds a value at most once. */
  lemma AtMostOnce(r: seq<nat>, k: nat)
    ensures (forall m, l :: 0 <= m < l < |r| ==> r[m] < r[l]) && (forall m :: 0 <= m < |r| ==> r[m] == k) ==> |r| <= 1
  {
    if |r| >= 2 && forall m, l :: 0 <= m < l < |r| ==> r[m] < r[l] {
      assert r[0] < r[1];
    }
  }

  /** When two snapshots differ at one field only, the change list is that field's entry. */
  lemma OneChange(fields: seq<string>, before: seq<Value>, after: seq<Value>, k: nat)
    requires |fields| == |before| == |after| && k < |before|
    requires before[k] != after[k]
    requires forall i :: 0 <= i < |before| && i != k ==> before[i] == after[i]
    ensures Changes(fields, before, after) == [Fragment(fields[k], before[k], after[k])]
    ensures Details(Changes(fields, before, after)) == Fragment(fields[k], before[k], after[k])
  {
    OnlyPosition(before, after, k);
    var changes := Changes(fields, before, after);
    assert |changes| == 1 && changes[0] == Fragment(fields[k], before[k], after[k]);
  }

  /** When two snapshots differ at one field only, that field is the only changed position. */
  lemma OnlyPosition(before: seq<Value>, after: seq<Value>, k: nat)
    requires |before| == |after| && k < |before|
    requires before[k] != after[k]
    requires forall i :: 0 <= i < |before| && i != k ==> before[i] == after[i]
    ensures ChangedPositions(before, after) == [k]
  {
    var pos := ChangedPositions(before, after);
    assert k in pos;
    assert forall m :: 0 <= m < |pos| ==> pos[m] == k;
    AtMostOnce(pos, k);
  }

  /** Moving the zone from `Norte` to `Sur` logs exactly that change. */
  lemma ZoneChangeLogged(e: Entrepreneur)
    requires e.zona == "Norte"
    ensures EntrepreneurEditDetails(e, PatchEntrepreneur(e, map["zona" := "Sur"]))
      == "Se editaron los datos del emprendimiento '" + e.nombreEmprendimiento + "'. Cambios: " + "zona: 'Norte' → 'Sur'"
  {
    ZoneOnlyChange(e);
    ZoneFragment();
  }

  lemma ZoneFragment()
    ensures Fragment("zona", Str("Norte"), Str("Sur")) == "zona: 'Norte' → 'Sur'"
  {
  }

  /** The same edit as a change list: the zone entry alone. */
  lemma ZoneOnlyChange(e: Entrepreneur)
    requires e.zona == "Norte"
    ensures var after := PatchEntrepreneur(e, map["zona" := "Sur"]);
      && after.nombreEmprendimiento == e.nombreEmprendimiento
      && Details(Changes(EntrepreneurFields, EntrepreneurSnapshot(e), EntrepreneurSnapshot(after)))
         == Fragment("zona", Str("Norte"), Str("Sur"))
  {
    var form := map["zona" := "Sur"];
    var after := PatchEntrepreneur(e, form);
    assert after == e.(zona := "Sur");
    OneChange(EntrepreneurFields, EntrepreneurSnapshot(e), EntrepreneurSnapshot(after), 2);
  }

  /** On a valid store a row's own NIT is held by no other row. */
  lemma OwnNitFree(st: Store, i: nat)
    requires Valid(st) && i < |st.entrepreneurs|
    ensures forall x :: x in st.entrepreneurs && x.id != st.entrepreneurs[i].id ==> x.nit != st.entrepreneurs[i].nit
  {
    var t := st.entrepreneurs;
    forall x | x in t && x.id != t[i].id
      ensures x.nit != t[i].nit
    {
      var j :| 0 <= j < |t| && t[j] == x;
      if j < i {
        assert Nit(t[j]) != Nit(t[i]);
      } else if j > i {
        assert Nit(t[i]) != Nit(t[j]);
      }
    }
  }

  /** Committing a form without any of the six fields rewrites the row as it was. */
  lemma CommitWithoutFields(st: Store, i: nat, form: Form)
    requires Valid(st) && i < |st.entrepreneurs|
    requires forall k :: 0 <= k < |EntrepreneurFields| ==> EntrepreneurFields[k] !in form
    ensures var e := st.entrepreneurs[i];
      CommitEntrepreneurEdit(st, i, form) == Outcome(
        st.(log := st.log + [LogEntry(e.id, ActionEditEntrepreneur, EntrepreneurEditDetails(e, e))]),
        Success(e.id))
  {
    var e := st.entrepreneurs[i];
    assert EntrepreneurFields[0] !in form && EntrepreneurFields[1] !in form && EntrepreneurFields[2] !in form;
    assert EntrepreneurFields[3] !in form && EntrepreneurFields[4] !in form && EntrepreneurFields[5] !in form;
    assert PatchEntrepreneur(e, form) == e;
    OwnNitFree(st, i);
    assert st.entrepreneurs[i := e] == st.entrepreneurs;
  }

  /**
   * A form without any of the six fields changes no column, and on a valid
   * store the edit is still committed and logged, as `Sin cambios detectados`.
   */
  lemma EditWithoutFields(st: Store, id: nat, form: Form)
    requires Valid(st)
    requires exists e :: e in st.entrepreneurs && e.id == id
    requires forall k :: 0 <= k < |EntrepreneurFields| ==> EntrepreneurFields[k] !in form
    ensures var o := EditEntrepreneur(st, id, form);
      && o.result == Success(id)
      && o.store.entrepreneurs == st.entrepreneurs
      && exists name :: o.store.log == st.log + [LogEntry(id, ActionEditEntrepreneur,
           "Se editaron los datos del emprendimiento '" + name + "'. Cambios: " + NoChanges)]
  {
    var o := EditEntrepreneur(st, id, form);
    var i :| EntrepreneurAt(st.entrepreneurs, id, i) && o == CommitEntrepreneurEdit(st, i, form);
    var e := st.entrepreneurs[i];
    CommitWithoutFields(st, i, form);
    NoChangesIff(EntrepreneurFields, EntrepreneurSnapshot(e), EntrepreneurSnapshot(e));
    assert EntrepreneurEditDetails(e, e)
      == "Se editaron los datos del emprendimiento '" + e.nombreEmprendimiento + "'. Cambios: " + NoChanges;
  }

  // ---------------------------------------------------------------------------
  // POST `/editar_explorador/<id>`
  // ---------------------------------------------------------------------------

  /** The personal fields the route snapshots, in the order it lists them. */
  const ExplorerFields := ["primer_nombre", "segundo_nombre", "primer_apellido", "segundo_apellido", "telefono", "fecha_nacimiento"]

  function ExplorerSnapshot(x: Explorer): (r: seq<Value>)
    ensures |r| == |ExplorerFields|
  {
    [Str(x.primerNombre), Str(x.segundoNombre), Str(x.primerApellido), Str(x.segundoApellido),
     Str(x.telefono), DateValue(x.fechaNacimiento)]
  }

  /**
   * The birth date after the edit. A missing or empty `fecha_nacimiento`
   * keeps the stored date; any other text, as submitted and not stripped,
   * must parse, or the edit is refused.
   */
  function EditedBirthDate(x: Explorer, form: Form, parseDate: string -> Option<Date>): (r: Result<Option<Date>, Error>)
    ensures r.Failure? <==>
      "fecha_nacimiento" in form && form["fecha_nacimiento"] != "" && parseDate(form["fecha_nacimiento"]).None?
    ensures r.Failure? ==> r.error == InvalidDate
    ensures r.Success? && ("fecha_nacimiento" !in form || form["fecha_nacimiento"] == "") ==>
      r.value == x.fechaNacimiento
    ensures r.Success? && "fecha_nacimiento" in form && form["fecha_nacimiento"] != "" ==>
      r.value.Some? && Some(r.value.value) == parseDate(form["fecha_nacimiento"])
  {
    if "fecha_nacimiento" in form && form["fecha_nacimiento"] != "" then
      match parseDate(form["fecha_nacimiento"])
      case None => Failure(InvalidDate)
      case Some(d) => Success(Some(d))
    else Success(x.fechaNacimiento)
  }

  /**
   * The five text fields follow `request.form.get(campo, actual)`; the birth
   * date is the one already decided. Nothing outside the snapshot changes.
   */
  function PatchExplorer(x: Explorer, form: Form, fecha: Option<Date>): (r: Explorer)
    ensures forall k :: 0 <= k < |ExplorerFields| - 1 ==>
      ExplorerSnapshot(r)[k] ==
        (if ExplorerFields[k] in form then Str(form[ExplorerFields[k]]) else ExplorerSnapshot(x)[k])
    ensures r.fechaNacimiento == fecha
    ensures r.(primerNombre := x.primerNombre, segundoNombre := x.segundoNombre, primerApellido := x.primerApellido,
               segundoApellido := x.segundoApellido, telefono := x.telefono, fechaNacimiento := x.fechaNacimiento) == x
  {
    x.(primerNombre := FormGet(form, "primer_nombre", x.primerNombre),
       segundoNombre := FormGet(form, "segundo_nombre", x.segundoNombre),
       primerApellido := FormGet(form, "primer_apellido", x.primerApellido),
       segundoApellido := FormGet(form, "segundo_apellido", x.segundoApellido),
       telefono := FormGet(form, "telefono", x.telefono),
       fechaNacimiento := fecha)
  }

  function ExplorerEditDetails(before: Explorer, after: Explorer): string {
    "Se editaron los datos del explorador '" + after.primerNombre + " " + after.primerApellido + "'. Cambios: "
      + Details(Changes(ExplorerFields, ExplorerSnapshot(before), ExplorerSnapshot(after)))
  }

  /** Replacing a row by one with the same id and owner keeps the store valid. */
  lemma ReplaceExplorerValid(st: Store, i: nat, x: Explorer)
    requires Valid(st) && i < |st.explorers|
    requires x.id == st.explorers[i].id && x.userId == st.explorers[i].userId
    ensures Valid(st.(explorers := st.explorers[i := x]))
  {
    var t := st.explorers;
    forall j | 0 <= j < |t| && j != i
      ensures ExplorerId(t[j]) != ExplorerId(x) && ExplorerOwner(t[j]) != ExplorerOwner(x)
    {
      if j < i {
        assert ExplorerId(t[j]) != ExplorerId(t[i]) && ExplorerOwner(t[j]) != ExplorerOwner(t[i]);
      } else {
        assert ExplorerId(t[i]) != ExplorerId(t[j]) && ExplorerOwner(t[i]) != ExplorerOwner(t[j]);
      }
    }
    UpdateUnique(t, i, x, ExplorerId);
    UpdateUnique(t, i, x, ExplorerOwner);
    assert t[i] in t;
    forall e | e in t[i := x]
      ensures OwnedBy(st.users, e.userId, RoleExplorer)
    {
      var j :| 0 <= j < |t| && t[i := x][j] == e;
      assert t[j] in t;
    }
  }

  /** Writes the patched row `i` and logs one `Edición de Explorador` entry about the profile. */
  function CommitExplorerEdit(st: Store, i: nat, form: Form, fecha: Option<Date>): (o: Outcome<nat>)
    requires i < |st.explorers|
    ensures var x := st.explorers[i];
      var after := PatchExplorer(x, form, fecha);
      && o.result == Success(x.id)
      && o.store.users == st.users && o.store.entrepreneurs == st.entrepreneurs
      && o.store.explorers == st.explorers[i := after]
      && o.store.log == st.log + [LogEntry(x.id, ActionEditExplorer, ExplorerEditDetails(x, after))]
    ensures Valid(st) ==> Valid(o.store)
  {
    var x := st.explorers[i];
    var after := PatchExplorer(x, form, fecha);
    var edited := st.(explorers := st.explorers[i := after]);
    var entry := LogEntry(x.id, ActionEditExplorer, ExplorerEditDetails(x, after));
    var st' := edited.(log := st.log + [entry]);
    assert Valid(st) ==> Valid(st') by {
      if Valid(st) {
        ReplaceExplorerValid(st, i, after);
        AppendLogValid(edited, entry);
      }
    }
    Outcome(st', Success(x.id))
  }

  /**
   * POST `/editar_explorador/<id>`: a missing row is a 404; a birth date
   * that does not parse stops the edit before anything is committed;
   * otherwise the patched row is committed and the edit logged under the
   * profile's id.
   */
  function EditExplorer(st: Store, id: nat, form: Form, parseDate: string -> Option<Date>): (o: Outcome<nat>)
    ensures o.result == Failure(NotFound) <==> forall x :: x in st.explorers ==> x.id != id
    ensures o.result.Failure? ==> o.store == st
    ensures o.result.Failure? ==> o.result.error == NotFound || o.result.error == InvalidDate
    ensures o.result == Failure(InvalidDate) <==>
      && (exists x :: x in st.explorers && x.id == id)
      && "fecha_nacimiento" in form && form["fecha_nacimiento"] != "" && parseDate(form["fecha_nacimiento"]).None?
    ensures o.result.Success? ==>
      exists i :: ExplorerAt(st.explorers, id, i)
        && var fecha := EditedBirthDate(st.explorers[i], form, parseDate);
        && fecha.Success? && o == CommitExplorerEdit(st, i, form, fecha.value)
    ensures o.result.Success? ==>
      && o.result.value == id
      && |o.store.log| == |st.log| + 1 && o.store.log[..|st.log|] == st.log
      && o.store.log[|st.log|].entidadId == id && o.store.log[|st.log|].accion == ActionEditExplorer
    ensures Valid(st) ==> Valid(o.store)
  {
    match FirstWhere(st.explorers, HasExplorerId(id))
    case None => Outcome(st, Failure(NotFound))
    case Some(i) =>
      assert ExplorerAt(st.explorers, id, i);
      assert st.explorers[i] in st.explorers;
      match EditedBirthDate(st.explorers[i], form, parseDate)
      case Failure(err) => Outcome(st, Failure(err))
      case Success(fecha) =>
        var o := CommitExplorerEdit(st, i, form, fecha);
        assert o.store.log[..|st.log|] == st.log;
        o
  }

  // ---------------------------------------------------------------------------
  // POST `/eliminar_emprendimiento/<id>` and `/eliminar_explorador/<id>`
  // ---------------------------------------------------------------------------

  function NotUser(uid: nat): User -> bool {
    (u: User) => u.id != uid
  }

  function ExplorerNotOwnedBy(uid: nat): Explorer -> bool {
    (x: Explorer) => x.userId != uid
  }

  function EntrepreneurNotOwnedBy(uid: nat): Entrepreneur -> bool {
    (e: Entrepreneur) => e.userId != uid
  }

  /** User `uid` and every profile it owns are gone from `after`; every other row is still there. */
  ghost predicate UserRemoved(before: Store, after: Store, uid: nat) {
    && (forall u :: u in after.users <==> u in before.users && u.id != uid)
    && (forall x :: x in after.explorers <==> x in before.explorers && x.userId != uid)
    && (forall e :: e in after.entrepreneurs <==> e in before.entrepreneurs && e.userId != uid)
  }

  /**
   * Logs `entry`, then deletes user `uid`; the relationships' `delete-orphan`
   * cascade deletes its profiles with it.
   */
  function DeleteUser(st: Store, uid: nat, entry: LogEntry): (st': Store)
    ensures UserRemoved(st, st', uid)
    ensures st'.log == st.log + [entry]
    ensures Valid(st) && IsAppAction(entry.accion) ==> Valid(st')
  {
    var st' := Store(
      Filter(st.users, NotUser(uid)),
      Filter(st.explorers, ExplorerNotOwnedBy(uid)),
      Filter(st.entrepreneurs, EntrepreneurNotOwnedBy(uid)),
      st.log + [entry]);
    assert Valid(st) && IsAppAction(entry.accion) ==> Valid(st') by {
      if Valid(st) && IsAppAction(entry.accion) {
        DeleteUserValid(st, uid, entry);
      }
    }
    st'
  }

  lemma DeleteUserValid(st: Store, uid: nat, entry: LogEntry)
    requires Valid(st) && IsAppAction(entry.accion)
    ensures Valid(Store(
      Filter(st.users, NotUser(uid)),
      Filter(st.explorers, ExplorerNotOwnedBy(uid)),
      Filter(st.entrepreneurs, EntrepreneurNotOwnedBy(uid)),
      st.log + [entry]))
  {
    var users := Filter(st.users, NotUser(uid));
    FilterUnique(st.users, NotUser(uid), UserId);
    FilterUnique(st.users, NotUser(uid), Username);
    FilterUnique(st.users, NotUser(uid), Email);
    FilterUnique(st.explorers, ExplorerNotOwnedBy(uid), ExplorerId);
    FilterUnique(st.explorers, ExplorerNotOwnedBy(uid), ExplorerOwner);
    FilterUnique(st.entrepreneurs, EntrepreneurNotOwnedBy(uid), EntrepreneurId);
    FilterUnique(st.entrepreneurs, EntrepreneurNotOwnedBy(uid), EntrepreneurOwner);
    FilterUnique(st.entrepreneurs, EntrepreneurNotOwnedBy(uid), Nit);
    forall x | x in Filter(st.explorers, ExplorerNotOwnedBy(uid))
      ensures OwnedBy(users, x.userId, RoleExplorer)
    {
      var v :| v in st.users && v.id == x.userId && v.role == RoleExplorer;
      assert v in users;
    }
    forall e | e in Filter(st.entrepreneurs, EntrepreneurNotOwnedBy(uid))
      ensures OwnedBy(users, e.userId, RoleEntrepreneur)
    {
      var v :| v in st.users && v.id == e.userId && v.role == RoleEntrepreneur;
      assert v in users;
    }
  }

  function EntrepreneurDeletionDetails(u: User, e: Entrepreneur): string {
    "Se eliminó el usuario \"" + u.username + "\" asociado al emprendimiento \"" + e.nombreEmprendimiento + "\"."
  }

  /** The f-string interpolates the tuple `(primer_nombre, primer_apellido)`, so its repr is what is written. */
  function ExplorerDeletionDetails(u: User, x: Explorer): string {
    "Se eliminó el usuario \"" + u.username + "\" asociado al explorador \""
      + PyPairRepr(x.primerNombre, x.primerApellido) + "\"."
  }

  /**
   * POST `/eliminar_emprendimiento/<id>`: a missing row is a 404, a row
   * whose user is gone makes the handler fail; otherwise one `Eliminación`
   * entry about the owner is logged and the owner is deleted with its
   * profiles. The result is the owner's id.
   */
  function DeleteEntrepreneur(st: Store, id: nat): (o: Outcome<nat>)
    ensures o.result == Failure(NotFound) <==> forall e :: e in st.entrepreneurs ==> e.id != id
    ensures o.result.Failure? ==> o.store == st
    ensures o.result.Failure? ==> o.result.error == NotFound || o.result.error == ServerError
    ensures o.result == Failure(ServerError) <==>
      exists i :: EntrepreneurAt(st.entrepreneurs, id, i) && forall u :: u in st.users ==> u.id != st.entrepreneurs[i].userId
    ensures o.result.Success? ==>
      && UserRemoved(st, o.store, o.result.value)
      && exists i :: (EntrepreneurAt(st.entrepreneurs, id, i) && st.entrepreneurs[i].userId == o.result.value
        && exists u :: (u in st.users && u.id == o.result.value
          && o.store.log == st.log + [LogEntry(u.id, ActionDelete, EntrepreneurDeletionDetails(u, st.entrepreneurs[i]))]))
    ensures Valid(st) ==> Valid(o.store)
  {
    match FirstWhere(st.entrepreneurs, HasEntrepreneurId(id))
    case None => Outcome(st, Failure(NotFound))
    case Some(i) =>
      assert EntrepreneurAt(st.entrepreneurs, id, i);
      var e := st.entrepreneurs[i];
      match FindUser(st.users, e.userId)
      case None => Outcome(st, Failure(ServerError))
      case Some(u) =>
        Outcome(DeleteUser(st, u.id, LogEntry(u.id, ActionDelete, EntrepreneurDeletionDetails(u, e))), Success(u.id))
  }

  /**
   * POST `/eliminar_explorador/<id>`: as for an entrepreneur, with the
   * explorer's names in the audit text.
   */
  function DeleteExplorer(st: Store, id: nat): (o: Outcome<nat>)
    ensures o.result == Failure(NotFound) <==> forall x :: x in st.explorers ==> x.id != id
    ensures o.result.Failure? ==> o.store == st
    ensures o.result.Failure? ==> o.result.error == NotFound || o.result.error == ServerError
    ensures o.result == Failure(ServerError) <==>
      exists i :: ExplorerAt(st.explorers, id, i) && forall u :: u in st.users ==> u.id != st.explorers[i].userId
    ensures o.result.Success? ==>
      && UserRemoved(st, o.store, o.result.value)
      && exists i :: (ExplorerAt(st.explorers, id, i) && st.explorers[i].userId == o.result.value
        && exists u :: (u in st.users && u.id == o.result.value
          && o.store.log == st.log + [LogEntry(u.id, ActionDelete, ExplorerDeletionDetails(u, st.explorers[i]))]))
    ensures Valid(st) ==> Valid(o.store)
  {
    match FirstWhere(st.explorers, HasExplorerId(id))
    case None => Outcome(st, Failure(NotFound))
    case Some(i) =>
      assert ExplorerAt(st.explorers, id, i);
      var x := st.explorers[i];
      match FindUser(st.users, x.userId)
      case None => Outcome(st, Failure(ServerError))
      case Some(u) =>
        Outcome(DeleteUser(st, u.id, LogEntry(u.id, ActionDelete, ExplorerDeletionDetails(u, x))), Success(u.id))
  }

  /** On a valid store the owner is always found, and the deleted profile is gone afterwards. */
  lemma DeleteEntrepreneurRemovesRow(st: Store, id: nat)
    requires Valid(st)
    requires exists e :: e in st.entrepreneurs && e.id == id
    ensures DeleteEntrepreneur(st, id).result.Success?
    ensures forall e :: e in DeleteEntrepreneur(st, id).store.entrepreneurs ==> e.id != id
  {
    var i := FirstWhere(st.entrepreneurs, HasEntrepreneurId(id)).value;
    EntrepreneurOwnerFound(st, id);
    var o := DeleteEntrepreneur(st, id);
    EntrepreneurRowGone(st, o.store, st.entrepreneurs[i].userId, i);
  }

  /** On a valid store the owner is always found, and the deleted profile is gone afterwards. */
  lemma DeleteExplorerRemovesRow(st: Store, id: nat)
    requires Valid(st)
    requires exists x :: x in st.explorers && x.id == id
    ensures DeleteExplorer(st, id).result.Success?
    ensures forall x :: x in DeleteExplorer(st, id).store.explorers ==> x.id != id
  {
    var i := FirstWhere(st.explorers, HasExplorerId(id)).value;
    ExplorerOwnerFound(st, id);
    var o := DeleteExplorer(st, id);
    ExplorerRowGone(st, o.store, st.explorers[i].userId, i);
  }

  /** Removing the owner of row `i` removes the only row with that row's id. */
  lemma EntrepreneurRowGone(before: Store, after: Store, uid: nat, i: nat)
    requires UniqueBy(before.entrepreneurs, EntrepreneurId)
    requires i < |before.entrepreneurs| && before.entrepreneurs[i].userId == uid
    requires UserRemoved(before, after, uid)
    ensures forall e :: e in after.entrepreneurs ==> e.id != before.entrepreneurs[i].id
  {
    var t := before.entrepreneurs;
    OnlyRowWith(t, EntrepreneurId, i);
    forall e | e in after.entrepreneurs
      ensures e.id != t[i].id
    {
      var j :| 0 <= j < |t| && t[j] == e;
      assert j != i;
      assert EntrepreneurId(t[j]) != EntrepreneurId(t[i]);
    }
  }

  /** Removing the owner of row `i` removes the only row with that row's id. */
  lemma ExplorerRowGone(before: Store, after: Store, uid: nat, i: nat)
    requires UniqueBy(before.explorers, ExplorerId)
    requires i < |before.explorers| && before.explorers[i].userId == uid
    requires UserRemoved(before, after, uid)
    ensures forall x :: x in after.explorers ==> x.id != before.explorers[i].id
  {
    var t := before.explorers;
    OnlyRowWith(t, ExplorerId, i);
    forall x | x in after.explorers
      ensures x.id != t[i].id
    {
      var j :| 0 <= j < |t| && t[j] == x;
      assert j != i;
      assert ExplorerId(t[j]) != ExplorerId(t[i]);
    }
  }

  /** On a valid store the owner of an existing entrepreneur row is found, so the delete goes through. */
  lemma EntrepreneurOwnerFound(st: Store, id: nat)
    requires Valid(st)
    requires exists e :: e in st.entrepreneurs && e.id == id
    ensures FirstWhere(st.entrepreneurs, HasEntrepreneurId(id)).Some?
    ensures var i := FirstWhere(st.entrepreneurs, HasEntrepreneurId(id)).value;
      DeleteEntrepreneur(st, id).result == Success(st.entrepreneurs[i].userId)
  {
    var t := st.entrepreneurs;
    var e :| e in t && e.id == id;
    var i := FirstWhere(t, HasEntrepreneurId(id)).value;
    assert t[i] in t;
    assert FindUser(st.users, t[i].userId).Some?;
  }

  /** On a valid store the owner of an existing explorer row is found, so the delete goes through. */
  lemma ExplorerOwnerFound(st: Store, id: nat)
    requires Valid(st)
    requires exists x :: x in st.explorers && x.id == id
    ensures FirstWhere(st.explorers, HasExplorerId(id)).Some?
    ensures var i := FirstWhere(st.explorers, HasExplorerId(id)).value;
      DeleteExplorer(st, id).result == Success(st.explorers[i].userId)
  {
    var t := st.explorers;
    var x :| x in t && x.id == id;
    var i := FirstWhere(t, HasExplorerId(id)).value;
    assert t[i] in t;
    assert FindUser(st.users, t[i].userId).Some?;
  }

  /** A session still carrying a deleted user's id makes `/BotonLog` fail. */
  lemma DeletedSessionFails(st: Store, id: nat, session: Session)
    requires DeleteEntrepreneur(st, id).result.Success?
    requires session.userId == Some(DeleteEntrepreneur(st, id).result.value)
    ensures Dispatch(DeleteEntrepreneur(st, id).store, session) == Failure(ServerError)
  {
  }
}

=== FILE: auth.dfy ===
/**
 * Logging in and out, the role-based redirect of `/BotonLog`, and the
 * `/crear_admin` bootstrap.
 */
module Auth {
  import opened Wrappers
  import opened Text
  import opened Tables
  import opened Models

  /** The keys the application keeps in the server-side session. */
  datatype Session = Session(userId: Option<nat>, username: Option<string>, role: Option<string>)

  const NoSession := Session(None, None, None)

  /** Where a request is redirected. */
  datatype Target = LoginPage | AdminDashboard | EntrepreneurDashboard | ExplorerDashboard

  /** The dashboard of a role: administrators and entrepreneurs have their own, every other role lands on the explorer's. */
  function RoleTarget(role: string): (t: Target)
    ensures t == AdminDashboard <==> role == RoleAdmin
    ensures t == EntrepreneurDashboard <==> role == RoleEntrepreneur
    ensures t == ExplorerDashboard <==> role != RoleAdmin && role != RoleEntrepreneur
  {
    if role == RoleAdmin then AdminDashboard
    else if role == RoleEntrepreneur then EntrepreneurDashboard
    else ExplorerDashboard
  }

  /** A user answers to a login identifier by username or by email. */
  predicate Identifies(u: User, identifier: string) {
    u.username == identifier || u.email == identifier
  }

  function IdentifiedBy(identifier: string): User -> bool {
    (u: User) => Identifies(u, identifier)
  }

  /** `users[i]` is the earliest row whose username or email is the identifier. */
  ghost predicate FirstMatch(users: seq<User>, identifier: string, i: int) {
    && 0 <= i < |users|
    && Identifies(users[i], identifier)
    && forall j :: 0 <= j < i ==> !Identifies(users[j], identifier)
  }

  datatype LoginResult = Refused(error: Error) | LoggedIn(session: Session, target: Target)

  /** Credentials were wrong: the form is shown again with the one generic message. */
  const InvalidCredentials := Refused(BadCredentials)

  /**
   * POST `/login`. The identifier is stripped, the password is not. Success
   * stores id, username and role in the session and redirects by role; any
   * failure gives the same answer whether the identifier or the password was
   * wrong.
   */
  function Login(st: Store, session: Session, form: Form): (r: LoginResult)
    ensures r == Refused(BadRequest) <==> !("identifier" in form && "password" in form)
    ensures r.Refused? ==> r == Refused(BadRequest) || r == InvalidCredentials
    ensures r.LoggedIn? <==>
      && "identifier" in form && "password" in form
      && exists i :: FirstMatch(st.users, Strip(form["identifier"]), i)
                     && CheckPassword(st.users[i].passwordHash, form["password"])
    ensures r.LoggedIn? ==>
      exists i :: FirstMatch(st.users, Strip(form["identifier"]), i)
        && var u := st.users[i];
        && r.session == session.(userId := Some(u.id), username := Some(u.username), role := Some(u.role))
        && r.target == RoleTarget(u.role)
  {
    if !("identifier" in form && "password" in form) then Refused(BadRequest)
    else
      var identifier := Strip(form["identifier"]);
      match FirstWhere(st.users, IdentifiedBy(identifier))
      case None => InvalidCredentials
      case Some(i) =>
        var u := st.users[i];
        if CheckPassword(u.passwordHash, form["password"]) then
          LoggedIn(session.(userId := Some(u.id), username := Some(u.username), role := Some(u.role)), RoleTarget(u.role))
        else InvalidCredentials
  }

  /**
   * When no other user answers to the identifier, login succeeds exactly
   * when some user with that username or email verifies the password.
   */
  lemma LoginSoleMatch(st: Store, session: Session, identifier: string, password: string)
    requires forall i, j :: 0 <= i < j < |st.users| && Identifies(st.users[i], Strip(identifier)) ==> !Identifies(st.users[j], Strip(identifier))
    ensures Login(st, session, map["identifier" := identifier, "password" := password]).LoggedIn?
        <==> exists u :: u in st.users && Identifies(u, Strip(identifier)) && CheckPassword(u.passwordHash, password)
  {
    var form := map["identifier" := identifier, "password" := password];
    var id := Strip(identifier);
    if u :| u in st.users && Identifies(u, id) && CheckPassword(u.passwordHash, password) {
      var k :| 0 <= k < |st.users| && st.users[k] == u;
      match FirstWhere(st.users, IdentifiedBy(id))
      case Some(i) =>
        assert FirstMatch(st.users, id, k);
      case None =>
        assert IdentifiedBy(id)(st.users[k]);
    }
  }

  /** GET `/logout`: drops `user_id` from the session and nothing else. */
  function Logout(session: Session): (r: Session)
    ensures r.userId.None?
    ensures r.username == session.username && r.role == session.role
  {
    session.(userId := None)
  }

  /**
   * GET `/BotonLog`: without a user id in the session, the login page;
   * otherwise the dashboard of the role the database has for that id. A
   * session whose user no longer exists makes the handler fail.
   */
  function Dispatch(st: Store, session: Session): (r: Result<Target, Error>)
    ensures session.userId.None? ==> r == Success(LoginPage)
    ensures session.userId.Some? ==>
      (r == Failure(ServerError) <==> forall u :: u in st.users ==> u.id != session.userId.value)
    ensures r.Failure? ==> r == Failure(ServerError)
    ensures session.userId.Some? && r.Success? ==>
      exists u :: u in st.users && u.id == session.userId.value && r.value == RoleTarget(u.role)
  {
    match session.userId
    case None => Success(LoginPage)
    case Some(uid) =>
      match FindUser(st.users, uid)
      case None => Failure(ServerError)
      case Some(u) => Success(RoleTarget(u.role))
  }

  /** The redirect `/login` answers with is the one `/BotonLog` gives afterwards. */
  lemma LoginThenDispatch(st: Store, session: Session, form: Form)
    requires Valid(st)
    requires Login(st, session, form).LoggedIn?
    ensures var r := Login(st, session, form);
      Dispatch(st, r.session) == Success(r.target)
  {
    var r := Login(st, session, form);
    var i :| FirstMatch(st.users, Strip(form["identifier"]), i)
      && var u := st.users[i];
      && r.session == session.(userId := Some(u.id), username := Some(u.username), role := Some(u.role))
      && r.target == RoleTarget(u.role);
    FindUserUnique(st.users, i);
  }

  /** After logout `/BotonLog` sends the browser back to the login page. */
  lemma LogoutThenDispatch(st: Store, session: Session)
    ensures Dispatch(st, Logout(session)) == Success(LoginPage)
    ensures Logout(Logout(session)) == Logout(session)
  {
  }

  const AdminUsername := "admin"
  const AdminEmail := "admin@myiana.com"
  const AdminPassword := "admin"
  const AdminExistsMessage := "El administrador ya existe"
  const AdminCreatedMessage := "Usuario administrador creado correctamente: admin / admin123"

  predicate NamedAdmin(u: User) {
    u.username == AdminUsername
  }

  predicate HasAdminEmail(u: User) {
    u.email == AdminEmail
  }

  /**
   * GET `/crear_admin`: when no user is called `admin`, adds the
   * administrator account; otherwise changes nothing. The account's email is
   * UNIQUE, so a different user already holding it makes the commit fail.
   */
  function CreateAdmin(st: Store, salt: nat): (o: Outcome<string>)
    ensures (exists u :: u in st.users && NamedAdmin(u)) ==> o == Outcome(st, Success(AdminExistsMessage))
    ensures (forall u :: u in st.users ==> !NamedAdmin(u)) && (exists u :: u in st.users && HasAdminEmail(u)) ==>
      o == Outcome(st, Failure(IntegrityError))
    ensures (forall u :: u in st.users ==> !NamedAdmin(u) && !HasAdminEmail(u)) ==>
      && o.result == Success(AdminCreatedMessage)
      && |o.store.users| == |st.users| + 1
      && o.store == st.(users := st.users + [o.store.users[|st.users|]])
      && var a := o.store.users[|st.users|];
      && a.username == AdminUsername && a.email == AdminEmail && a.role == RoleAdmin
      && CheckPassword(a.passwordHash, AdminPassword)
      && forall u :: u in st.users ==> u.id < a.id
  {
    if FirstWhere(st.users, NamedAdmin).Some? then Outcome(st, Success(AdminExistsMessage))
    else if FirstWhere(st.users, HasAdminEmail).Some? then Outcome(st, Failure(IntegrityError))
    else
      var admin := User(NextKey(st.users, UserId), AdminUsername, AdminEmail, Hash(salt, AdminPassword), RoleAdmin);
      Outcome(st.(users := st.users + [admin]), Success(AdminCreatedMessage))
  }

  /** Bootstrapping twice leaves the store as bootstrapping once. */
  lemma CreateAdminIdempotent(st: Store, salt1: nat, salt2: nat)
    ensures var once := CreateAdmin(st, salt1).store;
      CreateAdmin(once, salt2).store == once
  {
    var o := CreateAdmin(st, salt1);
    if o.store != st {
      var a := o.store.users[|st.users|];
      assert a in o.store.users && NamedAdmin(a);
    }
  }

  lemma CreateAdminPreservesValid(st: Store, salt: nat)
    requires Valid(st)
    ensures Valid(CreateAdmin(st, salt).store)
  {
    var o := CreateAdmin(st, salt);
    if o.store != st {
      var a := o.store.users[|st.users|];
      assert forall i :: 0 <= i < |st.users| ==> st.users[i] in st.users;
      AppendUnique(st.users, a, UserId);
      AppendUnique(st.users, a, Username);
      AppendUnique(st.users, a, Email);
      forall e | e in o.store.explorers
        ensures OwnedBy(o.store.users, e.userId, RoleExplorer)
      {
        var u :| u in st.users && u.id == e.userId && u.role == RoleExplorer;
        assert u in o.store.users;
      }
      forall e | e in o.store.entrepreneurs
        ensures OwnedBy(o.store.users, e.userId, RoleEntrepreneur)
      {
        var u :| u in st.users && u.id == e.userId && u.role == RoleEntrepreneur;
        assert u in o.store.users;
      }
    }
  }

  /** On a store without any `admin`, the new account is the first to answer to `admin`. */
  lemma CreatedAdminAnswers(st: Store, salt: nat)
    requires forall u :: u in st.users ==> !Identifies(u, AdminUsername) && !HasAdminEmail(u)
    ensures var users := CreateAdmin(st, salt).store.users;
      && |users| == |st.users| + 1
      && FirstWhere(users, IdentifiedBy(Strip(AdminUsername))) == Some(|st.users|)
      && users[|st.users|].passwordHash == Hash(salt, AdminPassword)
      && users[|st.users|].role == RoleAdmin
  {
    var n := |st.users|;
    assert forall j :: 0 <= j < n ==> st.users[j] in st.users;
    assert FirstWhere(st.users, NamedAdmin).None?;
    assert FirstWhere(st.users, HasAdminEmail).None?;
    var users := CreateAdmin(st, salt).store.users;
    AdminNameStripped();
    forall j | 0 <= j < n
      ensures !IdentifiedBy(AdminUsername)(users[j])
    {
      assert users[j] == st.users[j] && st.users[j] in st.users;
    }
  }

  lemma AdminNameStripped()
    ensures Strip(AdminUsername) == AdminUsername
  {
    StripKeeps(AdminUsername);
  }

  /**
   * The message of `/crear_admin` announces the password `admin123`, but the
   * account is created with the password `admin`: logging in with the
   * announced credentials is refused, with the real ones it reaches the
   * administrator dashboard.
   */
  lemma AnnouncedAdminPassword(st: Store, salt: nat, session: Session, form: Form)
    requires forall u :: u in st.users ==> !Identifies(u, AdminUsername) && !HasAdminEmail(u)
    requires "identifier" in form && form["identifier"] == AdminUsername
    requires "password" in form
    ensures var r := Login(CreateAdmin(st, salt).store, session, form);
      && (form["password"] == "admin123" ==> r == InvalidCredentials)
      && (form["password"] == AdminPassword ==> r.LoggedIn? && r.target == AdminDashboard)
  {
    CreatedAdminAnswers(st, salt);
  }
}

=== FILE: charts.dfy ===
/**
 * How each route moves the figures of the administrator's dashboard: every
 * successful write logs one action, which the action chart counts under
 * exactly one keyword; a registration also moves the user totals and, for
 * an explorer, the preference chart.
 */
module Charts {
  import opened Wrappers
  import opened Text
  import opened Tables
  import opened Models
  import opened Dashboard
  import Registration
  import Admin

  /** `after` is `before` with the count at `k` raised by one. */
  predicate RaisedAt(before: seq<nat>, after: seq<nat>, k: nat) {
    |after| == |before| && k < |before|
    && after[k] == before[k] + 1
    && forall j :: 0 <= j < |before| && j != k ==> after[j] == before[j]
  }

  /** Logging `entry` raises the action chart at its keyword. */
  lemma LoggedOnce(log: seq<LogEntry>, entry: LogEntry, k: nat)
    requires IsAppAction(entry.accion) && KeywordOf(entry.accion) == k
    ensures RaisedAt(ActionValues(log), ActionValues(log + [entry]), k)
  {
    AppendActionCounts(log, entry);
  }

  /** A registration that goes through raises `Creación` by one. */
  lemma RegisterCountsCreation(st: Store, form: Form, salt: nat, parseDate: string -> Option<Date>)
    requires Registration.Register(st, form, salt, parseDate).result.Success?
    ensures RaisedAt(ActionValues(st.log), ActionValues(Registration.Register(st, form, salt, parseDate).store.log), 0)
  {
    var o := Registration.Register(st, form, salt, parseDate);
    LoggedOnce(st.log, o.store.log[|st.log|], 0);
    assert o.store.log == st.log + [o.store.log[|st.log|]];
  }

  /** An entrepreneur edit that goes through raises `Edición` by one. */
  lemma EditEntrepreneurCountsEdit(st: Store, id: nat, form: Form)
    requires Admin.EditEntrepreneur(st, id, form).result.Success?
    ensures RaisedAt(ActionValues(st.log), ActionValues(Admin.EditEntrepreneur(st, id, form).store.log), 1)
  {
    var log := Admin.EditEntrepreneur(st, id, form).store.log;
    assert log == st.log + [log[|st.log|]];
    LoggedOnce(st.log, log[|st.log|], 1);
  }

  /** An explorer edit that goes through raises `Edición` by one. */
  lemma EditExplorerCountsEdit(st: Store, id: nat, form: Form, parseDate: string -> Option<Date>)
    requires Admin.EditExplorer(st, id, form, parseDate).result.Success?
    ensures RaisedAt(ActionValues(st.log), ActionValues(Admin.EditExplorer(st, id, form, parseDate).store.log), 1)
  {
    var log := Admin.EditExplorer(st, id, form, parseDate).store.log;
    assert log == st.log + [log[|st.log|]];
    LoggedOnce(st.log, log[|st.log|], 1);
  }

  /** Deleting an entrepreneur raises `Eliminación` by one. */
  lemma DeleteEntrepreneurCountsDeletion(st: Store, id: nat)
    requires Admin.DeleteEntrepreneur(st, id).result.Success?
    ensures RaisedAt(ActionValues(st.log), ActionValues(Admin.DeleteEntrepreneur(st, id).store.log), 2)
  {
    var log := Admin.DeleteEntrepreneur(st, id).store.log;
    assert |log| == |st.log| + 1 && log == st.log + [log[|st.log|]] && log[|st.log|].accion == ActionDelete;
    LoggedOnce(st.log, log[|st.log|], 2);
  }

  /** Deleting an explorer raises `Eliminación` by one. */
  lemma DeleteExplorerCountsDeletion(st: Store, id: nat)
    requires Admin.DeleteExplorer(st, id).result.Success?
    ensures RaisedAt(ActionValues(st.log), ActionValues(Admin.DeleteExplorer(st, id).store.log), 2)
  {
    var log := Admin.DeleteExplorer(st, id).store.log;
    assert |log| == |st.log| + 1 && log == st.log + [log[|st.log|]] && log[|st.log|].accion == ActionDelete;
    LoggedOnce(st.log, log[|st.log|], 2);
  }

  /**
   * A registered explorer raises the preference chart at the preference it
   * gave, if that is one of the labels, and nowhere else.
   */
  lemma RegisterCountsPreference(st: Store, form: Form, salt: nat, parseDate: string -> Option<Date>, k: nat)
    requires Registration.Register(st, form, salt, parseDate).result.Success?
    requires Registration.RoleOf(form) == RoleExplorer
    requires k < |PreferenceLabels|
    ensures PreferenceValues(Registration.Register(st, form, salt, parseDate).store.explorers)[k]
      == PreferenceValues(st.explorers)[k]
         + (if Registration.Field(form, "preferencias") == PreferenceLabels[k] then 1 else 0)
  {
    var after := Registration.Register(st, form, salt, parseDate).store.explorers;
    var x := after[|st.explorers|];
    assert after == st.explorers + [x];
    PreferenceValuesAppend(st.explorers, x, k);
  }

  /**
   * The user totals compare the lower-cased role: a registration raises the
   * explorer total exactly when its role lower-cases to `explorador`, which
   * `EXPLORADOR` does although that role gets no explorer profile.
   */
  lemma RegisterCountsRole(st: Store, form: Form, salt: nat, parseDate: string -> Option<Date>)
    requires Registration.Register(st, form, salt, parseDate).result.Success?
    ensures var after := Registration.Register(st, form, salt, parseDate).store;
      && Count(after.users, RoleIs("explorador"))
         == Count(st.users, RoleIs("explorador")) + (if LowerAll(Registration.RoleOf(form)) == "explorador" then 1 else 0)
      && Count(after.users, RoleIs("emprendedor"))
         == Count(st.users, RoleIs("emprendedor")) + (if LowerAll(Registration.RoleOf(form)) == "emprendedor" then 1 else 0)
  {
    var after := Registration.Register(st, form, salt, parseDate).store;
    assert Registration.UserCommitted(st, after, form, salt);
    var u := after.users[|st.users|];
    assert after.users == st.users + [u];
    CountAppend(st.users, u, RoleIs("explorador"));
    CountAppend(st.users, u, RoleIs("emprendedor"));
  }

  /** `EXPLORADOR` is counted among the explorers of the dashboard, yet registering with it adds no profile. */
  lemma UpperCaseRoleCountedWithoutProfile(st: Store, form: Form, salt: nat, parseDate: string -> Option<Date>)
    requires Registration.Register(st, form, salt, parseDate).result.Success?
    requires Registration.RoleOf(form) == "EXPLORADOR"
    ensures var after := Registration.Register(st, form, salt, parseDate).store;
      && Count(after.users, RoleIs("explorador")) == Count(st.users, RoleIs("explorador")) + 1
      && after.explorers == st.explorers
  {
    ShoutedRole("EXPLORADOR");
    RegisterCountsRole(st, form, salt, parseDate);
  }

  lemma ShoutedRole(role: string)
    requires role == "EXPLORADOR"
    ensures LowerAll(role) == "explorador"
    ensures role != RoleExplorer && role != RoleEntrepreneur
  {
    assert role[1] != RoleExplorer[1] && role[1] != RoleEntrepreneur[1];
    var l := LowerAll(role);
    assert |l| == 10;
    forall i | 0 <= i < 10
      ensures l[i] == "explorador"[i]
    {
      assert l[i] == LowerAscii(role[i]);
    }
  }
}

=== FILE: dashboard.dfy ===
/**
 * GET `/admin_dashboard`: the user totals, the plan and preference
 * histograms over fixed label lists, and the number of audit entries whose
 * action mentions each of three keywords.
 */
module Dashboard {
  import opened Wrappers
  import opened Text
  import opened Tables
  import opened Models

  /** The plans the chart shows, in its order. */
  const PlanLabels := ["Sin Plan", "Valvanera", "Castillo Marroquin", "Diosa chia"]

  /** What an unlisted plan is bucketed as; note the lower-case `p`, so it is not a label. */
  const UnlistedPlan := "Sin plan"

  /** The preferences the chart shows, in its order. */
  const PreferenceLabels := ["Comida", "Hospedaje", "Ocio", "Arte y Cultura", "Naturaleza", "Compras"]

  /** The keywords the action chart looks for with `LIKE '%keyword%'`. */
  const ActionLabels := ["Creación", "Edición", "Eliminación"]

  // ---------------------------------------------------------------------------
  // Histograms (`Counter`)
  // ---------------------------------------------------------------------------

  function Is(x: string): string -> bool {
    (y: string) => y == x
  }

  function IsLabel(labels: seq<string>): string -> bool {
    (y: string) => y in labels
  }

  /** Counting the occurrences of `x` gives its multiplicity. */
  lemma {:induction false} CountIsMultiplicity(xs: seq<string>, x: string)
    ensures Count(xs, Is(x)) == multiset(xs)[x]
    decreases |xs|
  {
    if |xs| > 0 {
      var m := |xs| - 1;
      assert xs == xs[..m] + [xs[m]];
      CountAppend(xs[..m], xs[m], Is(x));
      CountIsMultiplicity(xs[..m], x);
    }
  }

  /** For each label, in order, how many of `xs` equal it (zero when none does). */
  function Histogram(xs: seq<string>, labels: seq<string>): (r: seq<nat>)
    ensures |r| == |labels|
    ensures forall k :: 0 <= k < |labels| ==> r[k] == multiset(xs)[labels[k]]
  {
    forall k | 0 <= k < |labels|
      ensures Count(xs, Is(labels[k])) == multiset(xs)[labels[k]]
    {
      CountIsMultiplicity(xs, labels[k]);
    }
    seq(|labels|, k requires 0 <= k < |labels| => Count(xs, Is(labels[k])))
  }

  function Sum(s: seq<nat>): nat {
    if |s| == 0 then 0 else s[0] + Sum(s[1..])
  }

  predicate Distinct(labels: seq<string>) {
    forall i, j :: 0 <= i < j < |labels| ==> labels[i] != labels[j]
  }

  /** Counting members of `[l] + rest` is counting `l` plus counting members of `rest`, when `l` is not in `rest`. */
  lemma {:induction false} CountSplit(xs: seq<string>, l: string, rest: seq<string>)
    requires l !in rest
    ensures Count(xs, IsLabel([l] + rest)) == Count(xs, Is(l)) + Count(xs, IsLabel(rest))
    decreases |xs|
  {
    if |xs| > 0 {
      var m := |xs| - 1;
      assert xs == xs[..m] + [xs[m]];
      CountAppend(xs[..m], xs[m], IsLabel([l] + rest));
      CountAppend(xs[..m], xs[m], Is(l));
      CountAppend(xs[..m], xs[m], IsLabel(rest));
      CountSplit(xs[..m], l, rest);
    }
  }

  /** Over distinct labels the histogram adds up to the number of values that are labels. */
  lemma {:induction false} HistogramTotal(xs: seq<string>, labels: seq<string>)
    requires Distinct(labels)
    ensures Sum(Histogram(xs, labels)) == Count(xs, IsLabel(labels))
    decreases |labels|
  {
    if |labels| == 0 {
      assert forall i :: 0 <= i < |xs| ==> !IsLabel(labels)(xs[i]);
    } else {
      var rest := labels[1..];
      assert labels == [labels[0]] + rest;
      assert Histogram(xs, labels)[1..] == Histogram(xs, rest);
      assert labels[0] !in rest by {
        forall j | 0 <= j < |rest|
          ensures rest[j] != labels[0]
        {
          assert rest[j] == labels[j + 1];
        }
      }
      CountIsMultiplicity(xs, labels[0]);
      CountSplit(xs, labels[0], rest);
      HistogramTotal(xs, rest);
    }
  }

  // ---------------------------------------------------------------------------
  // Plans and preferences
  // ---------------------------------------------------------------------------

  /** A listed plan is its own bucket; any other plan falls into the unlisted bucket. */
  function PlanBucket(plan: string): string {
    if plan in PlanLabels then plan else UnlistedPlan
  }

  /**
   * The bucketed plan of every entrepreneur, in table order. Each label
   * occurs once per entrepreneur with exactly that plan, and the labels
   * together once per entrepreneur with a listed plan.
   */
  function Planes(es: seq<Entrepreneur>): (r: seq<string>)
    ensures |r| == |es|
    ensures forall l :: l in PlanLabels ==> Count(r, Is(l)) == Count(es, HasPlan(l))
    ensures Count(r, IsLabel(PlanLabels)) == Count(es, PlanListed)
    decreases |es|
  {
    if |es| == 0 then []
    else
      var m := |es| - 1;
      var prev := Planes(es[..m]);
      var b := PlanBucket(es[m].plan);
      PlanesStep(es, prev);
      prev + [b]
  }

  /**
   * The last entrepreneur adds its bucket to the counts the others had
   * (`Count` unfolds on the last row).
   */
  lemma PlanesStep(es: seq<Entrepreneur>, prev: seq<string>)
    requires |es| > 0
    requires forall l :: l in PlanLabels ==> Count(prev, Is(l)) == Count(es[..|es| - 1], HasPlan(l))
    requires Count(prev, IsLabel(PlanLabels)) == Count(es[..|es| - 1], PlanListed)
    ensures var r := prev + [PlanBucket(es[|es| - 1].plan)];
      && (forall l :: l in PlanLabels ==> Count(r, Is(l)) == Count(es, HasPlan(l)))
      && Count(r, IsLabel(PlanLabels)) == Count(es, PlanListed)
  {
    var last := es[|es| - 1];
    forall l | l in PlanLabels
      ensures Count(prev + [PlanBucket(last.plan)], Is(l)) == Count(es, HasPlan(l))
    {
      PlanBucketLabel(last.plan, l);
      CountAppend(prev, PlanBucket(last.plan), Is(l));
    }
    PlanBucketLabel(last.plan, PlanLabels[0]);
    CountAppend(prev, PlanBucket(last.plan), IsLabel(PlanLabels));
  }

  function PlanValues(es: seq<Entrepreneur>): (r: seq<nat>)
    ensures |r| == |PlanLabels|
  {
    Histogram(Planes(es), PlanLabels)
  }

  function HasPlan(plan: string): Entrepreneur -> bool {
    (e: Entrepreneur) => e.plan == plan
  }

  function PlanListed(e: Entrepreneur): bool {
    e.plan in PlanLabels
  }

  /** The bucket of a plan is a label exactly when the plan is, and then it is the plan itself. */
  lemma PlanBucketLabel(plan: string, l: string)
    requires l in PlanLabels
    ensures PlanBucket(plan) == l <==> plan == l
    ensures PlanBucket(plan) in PlanLabels <==> plan in PlanLabels
  {
    assert UnlistedPlan !in PlanLabels;
  }

  /** Each plan value counts the entrepreneurs whose plan is exactly that label. */
  lemma PlanValuesCount(es: seq<Entrepreneur>, k: nat)
    requires k < |PlanLabels|
    ensures PlanValues(es)[k] == Count(es, HasPlan(PlanLabels[k]))
  {
    CountIsMultiplicity(Planes(es), PlanLabels[k]);
  }

  /**
   * The plan values add up to the entrepreneurs with a listed plan: the
   * `Sin plan` bucket of every other plan is counted nowhere.
   */
  lemma PlanValuesTotal(es: seq<Entrepreneur>)
    ensures Sum(PlanValues(es)) == Count(es, PlanListed)
    ensures Sum(PlanValues(es)) == |es| <==> forall i :: 0 <= i < |es| ==> es[i].plan in PlanLabels
  {
    PlanLabelsDistinct();
    HistogramTotal(Planes(es), PlanLabels);
    assert (forall i :: 0 <= i < |es| ==> PlanListed(es[i])) <==> (forall i :: 0 <= i < |es| ==> es[i].plan in PlanLabels);
  }

  lemma PlanLabelsDistinct()
    ensures Distinct(PlanLabels)
  {
    var p := PlanLabels;
    assert p[0][0] == 'S' && p[1][0] == 'V' && p[2][0] == 'C' && p[3][0] == 'D';
  }

  /** The preferences of the explorers whose preference is one of the labels, in table order. */
  function Preferences(xs: seq<Explorer>): (r: seq<string>)
    ensures |r| <= |xs|
    decreases |xs|
  {
    if |xs| == 0 then []
    else
      var m := |xs| - 1;
      Preferences(xs[..m]) + (if xs[m].preferencias in PreferenceLabels then [xs[m].preferencias] else [])
  }

  function PreferenceValues(xs: seq<Explorer>): (r: seq<nat>)
    ensures |r| == |PreferenceLabels|
  {
    Histogram(Preferences(xs), PreferenceLabels)
  }

  function HasPreference(p: string): Explorer -> bool {
    (x: Explorer) => x.preferencias == p
  }

  lemma {:induction false} PreferencesCount(xs: seq<Explorer>, l: string)
    requires l in PreferenceLabels
    ensures Count(Preferences(xs), Is(l)) == Count(xs, HasPreference(l))
    decreases |xs|
  {
    if |xs| > 0 {
      var m := |xs| - 1;
      assert xs == xs[..m] + [xs[m]];
      var kept := if xs[m].preferencias in PreferenceLabels then [xs[m].preferencias] else [];
      if kept == [] {
        assert Preferences(xs) == Preferences(xs[..m]);
      } else {
        CountAppend(Preferences(xs[..m]), xs[m].preferencias, Is(l));
      }
      CountAppend(xs[..m], xs[m], HasPreference(l));
      PreferencesCount(xs[..m], l);
    }
  }

  /** Each preference value counts the explorers whose preference is exactly that label. */
  lemma PreferenceValuesCount(xs: seq<Explorer>, k: nat)
    requires k < |PreferenceLabels|
    ensures PreferenceValues(xs)[k] == Count(xs, HasPreference(PreferenceLabels[k]))
  {
    PreferencesCount(xs, PreferenceLabels[k]);
    CountIsMultiplicity(Preferences(xs), PreferenceLabels[k]);
  }

  /** A new explorer raises the value of its own preference by one and leaves the others. */
  lemma PreferenceValuesAppend(xs: seq<Explorer>, x: Explorer, k: nat)
    requires k < |PreferenceLabels|
    ensures PreferenceValues(xs + [x])[k]
      == PreferenceValues(xs)[k] + (if x.preferencias == PreferenceLabels[k] then 1 else 0)
  {
    PreferenceValuesCount(xs, k);
    PreferenceValuesCount(xs + [x], k);
    CountAppend(xs, x, HasPreference(PreferenceLabels[k]));
  }

  // ---------------------------------------------------------------------------
  // Audit actions
  // ---------------------------------------------------------------------------

  /** The entry's action contains the keyword, as SQLite's `LIKE` compares. */
  function Mentions(keyword: string): LogEntry -> bool {
    (l: LogEntry) => LikeContains(l.accion, keyword)
  }

  /** The three counts of the action chart, in label order. */
  function ActionValues(log: seq<LogEntry>): (r: seq<nat>)
    ensures |r| == |ActionLabels|
    ensures forall k :: 0 <= k < |r| ==> r[k] <= |log|
  {
    seq(|ActionLabels|, k requires 0 <= k < |ActionLabels| => Count(log, Mentions(ActionLabels[k])))
  }

  /** The keyword an action label the routes write falls under. */
  function KeywordOf(a: string): nat {
    if a == ActionCreate then 0 else if a == ActionDelete then 2 else 1
  }

  // Each label is taken as a parameter equal to its text, so that the
  // verifier does not evaluate the recursive substring search on literals.

  lemma CreateMentions(s: string, cr: string, ed: string, el: string)
    requires s == ActionCreate && cr == "Creación" && ed == "Edición" && el == "Eliminación"
    ensures LikeContains(s, cr) && !LikeContains(s, ed) && !LikeContains(s, el)
  {
    OpensWith(s, cr);
    assert 'd' !in s && 'D' !in s && 'l' !in s && 'L' !in s;
    Lacks(s, ed, 1, 'd');
    Lacks(s, el, 1, 'l');
  }

  lemma DeleteMentions(s: string, cr: string, ed: string, el: string)
    requires s == ActionDelete && cr == "Creación" && ed == "Edición" && el == "Eliminación"
    ensures LikeContains(s, el) && !LikeContains(s, cr) && !LikeContains(s, ed)
  {
    OpensWith(s, el);
    assert 'r' !in s && 'R' !in s && 'd' !in s && 'D' !in s;
    Lacks(s, cr, 1, 'r');
    Lacks(s, ed, 1, 'd');
  }

  lemma EditEntrepreneurMentions(s: string, cr: string, ed: string, el: string)
    requires s == ActionEditEntrepreneur && cr == "Creación" && ed == "Edición" && el == "Eliminación"
    ensures LikeContains(s, ed) && !LikeContains(s, cr) && !LikeContains(s, el)
  {
    OpensWith(s, ed);
    EditEntrepreneurLacksCreate(s, cr);
    EditEntrepreneurLacksDelete(s, el);
  }

  lemma EditEntrepreneurLacksCreate(s: string, cr: string)
    requires s == ActionEditEntrepreneur && cr == "Creación"
    ensures !LikeContains(s, cr)
  {
    assert 'a' !in s && 'A' !in s;
    Lacks(s, cr, 3, 'a');
  }

  lemma EditEntrepreneurLacksDelete(s: string, el: string)
    requires s == ActionEditEntrepreneur && el == "Eliminación"
    ensures !LikeContains(s, el)
  {
    assert 'l' !in s && 'L' !in s;
    Lacks(s, el, 1, 'l');
  }

  lemma EditExplorerMentions(s: string, cr: string, ed: string, el: string)
    requires s == ActionEditExplorer && cr == "Creación" && ed == "Edición" && el == "Eliminación"
    ensures LikeContains(s, ed) && !LikeContains(s, cr) && !LikeContains(s, el)
  {
    OpensWith(s, ed);
    EditExplorerNotCreate(s, cr);
    EditExplorerLacksDelete(s, el);
  }

  lemma EditExplorerLacksDelete(s: string, el: string)
    requires s == ActionEditExplorer && el == "Eliminación"
    ensures !LikeContains(s, el)
  {
    assert 'm' !in s && 'M' !in s;
    Lacks(s, el, 3, 'm');
  }

  /**
   * An action label that lacks both cases of the `k`-th keyword character,
   * `c`, does not mention the keyword. The caller names `c`; the label and
   * the keyword stay out of this proof's context.
   */
  lemma Lacks(s: string, p: string, k: nat, c: char)
    requires k < |p| && LowerAscii(p[k]) == c
    requires c !in s && UpperAscii(c) !in s
    ensures !LikeContains(s, p)
  {
    LacksChar(s, p, k);
  }

  /** `Edición de Explorador` holds an `r`, but not within reach of a `Creación` placement. */
  lemma EditExplorerNotCreate(s: string, cr: string)
    requires s == ActionEditExplorer && cr == "Creación"
    ensures !LikeContains(s, cr)
  {
    var head := "Edición de Expl";
    assert s == head + "orador";
    assert s[..|head|] == head;
    assert 'r' !in head && 'R' !in head;
    LikeMissingCharRefutes(s, cr, 1, |head|);
  }

  /** Every action the routes write mentions exactly one keyword: the one `KeywordOf` names. */
  lemma ActionKeyword(a: string, k: nat)
    requires IsAppAction(a) && k < |ActionLabels|
    ensures LikeContains(a, ActionLabels[k]) <==> k == KeywordOf(a)
  {
    var cr, ed, el := ActionLabels[0], ActionLabels[1], ActionLabels[2];
    if a == ActionCreate {
      CreateMentions(a, cr, ed, el);
    } else if a == ActionDelete {
      DeleteMentions(a, cr, ed, el);
    } else if a == ActionEditEntrepreneur {
      EditEntrepreneurMentions(a, cr, ed, el);
    } else {
      EditExplorerMentions(a, cr, ed, el);
    }
  }

  /** Logging one action raises exactly the count of its keyword, by one. */
  lemma AppendActionCounts(log: seq<LogEntry>, entry: LogEntry)
    requires IsAppAction(entry.accion)
    ensures var before, w := ActionValues(log), KeywordOf(entry.accion);
      ActionValues(log + [entry]) == before[w := before[w] + 1]
  {
    var before, after, w := ActionValues(log), ActionValues(log + [entry]), KeywordOf(entry.accion);
    var raised := before[w := before[w] + 1];
    forall k | 0 <= k < |ActionLabels|
      ensures after[k] == raised[k]
    {
      AppendActionCount(log, entry, k);
    }
    assert after == raised;
  }

  /** The count of keyword `k` rises by one exactly when `k` is the logged action's keyword. */
  lemma AppendActionCount(log: seq<LogEntry>, entry: LogEntry, k: nat)
    requires IsAppAction(entry.accion) && k < |ActionLabels|
    ensures Count(log + [entry], Mentions(ActionLabels[k]))
      == Count(log, Mentions(ActionLabels[k])) + (if k == KeywordOf(entry.accion) then 1 else 0)
  {
    ActionKeyword(entry.accion, k);
    CountAppend(log, entry, Mentions(ActionLabels[k]));
  }

  /** Logging one action adds one to the chart's total. */
  lemma AppendActionSum(log: seq<LogEntry>, entry: LogEntry)
    requires IsAppAction(entry.accion)
    ensures Sum(ActionValues(log + [entry])) == Sum(ActionValues(log)) + 1
  {
    AppendActionCounts(log, entry);
    var before, after := ActionValues(log), ActionValues(log + [entry]);
    Sum3(before);
    Sum3(after);
    var w := KeywordOf(entry.accion);
    assert w < 3;
    var raised := before[w := before[w] + 1];
    assert after[0] == raised[0] && after[1] == raised[1] && after[2] == raised[2];
  }

  lemma Sum3(s: seq<nat>)
    requires |s| == 3
    ensures Sum(s) == s[0] + s[1] + s[2]
  {
    assert Sum(s[2..]) == s[2] + Sum(s[3..]);
    assert Sum(s[1..]) == s[1] + Sum(s[1..][1..]);
    assert s[1..][1..] == s[2..];
  }

  /** A log holding only the routes' actions is split by the chart without loss or overlap. */
  lemma {:induction false} ActionValuesTotal(log: seq<LogEntry>)
    requires forall l :: l in log ==> IsAppAction(l.accion)
    ensures Sum(ActionValues(log)) == |log|
    decreases |log|
  {
    if |log| == 0 {
      Sum3(ActionValues(log));
    } else {
      var m := |log| - 1;
      assert log == log[..m] + [log[m]];
      assert forall l :: l in log[..m] ==> l in log;
      assert log[m] in log;
      ActionValuesTotal(log[..m]);
      AppendActionSum(log[..m], log[m]);
    }
  }

  /** The entries whose action falls under keyword `k`. */
  function UnderKeyword(k: nat): LogEntry -> bool {
    (l: LogEntry) => KeywordOf(l.accion) == k
  }

  /**
   * On a log holding only the routes' actions, the `LIKE` count of each
   * keyword is the number of entries whose action falls under it.
   */
  lemma {:induction false} ActionValuesByKeyword(log: seq<LogEntry>, k: nat)
    requires forall l :: l in log ==> IsAppAction(l.accion)
    requires k < |ActionLabels|
    ensures ActionValues(log)[k] == Count(log, UnderKeyword(k))
    decreases |log|
  {
    if |log| > 0 {
      var m := |log| - 1;
      assert log == log[..m] + [log[m]];
      assert forall l :: l in log[..m] ==> l in log;
      assert log[m] in log;
      ActionValuesByKeyword(log[..m], k);
      AppendActionCount(log[..m], log[m], k);
      CountAppend(log[..m], log[m], UnderKeyword(k));
    }
  }

  // ---------------------------------------------------------------------------
  // User totals and the whole view
  // ---------------------------------------------------------------------------

  /** The user's role, lower-cased as SQLite does, equals `lowered`. */
  function RoleIs(lowered: string): User -> bool {
    (u: User) => LowerAll(u.role) == lowered
  }

  /** The figures the dashboard shows. */
  datatype Overview = Overview(
    totalUsers: nat, totalExplorers: nat, totalEntrepreneurs: nat,
    planValues: seq<nat>, preferenceValues: seq<nat>, actionValues: seq<nat>)

  /** GET `/admin_dashboard`, without the row listings it also renders. */
  function Summarize(st: Store): (v: Overview)
    ensures v.totalUsers == |st.users|
    ensures v.totalExplorers + v.totalEntrepreneurs <= v.totalUsers
    ensures |v.planValues| == |PlanLabels| && |v.preferenceValues| == |PreferenceLabels| && |v.actionValues| == |ActionLabels|
    ensures Sum(v.planValues) <= |st.entrepreneurs|
    ensures forall k :: 0 <= k < |PlanLabels| ==> v.planValues[k] == Count(st.entrepreneurs, HasPlan(PlanLabels[k]))
    ensures forall k :: 0 <= k < |PreferenceLabels| ==>
      v.preferenceValues[k] == Count(st.explorers, HasPreference(PreferenceLabels[k]))
    ensures Valid(st) ==> Sum(v.actionValues) == |st.log|
    ensures Valid(st) ==> forall k :: 0 <= k < |ActionLabels| ==> v.actionValues[k] == Count(st.log, UnderKeyword(k))
  {
    CountDisjoint(st.users, RoleIs("explorador"), RoleIs("emprendedor"));
    forall k | 0 <= k < |PlanLabels|
      ensures PlanValues(st.entrepreneurs)[k] == Count(st.entrepreneurs, HasPlan(PlanLabels[k]))
    {
      PlanValuesCount(st.entrepreneurs, k);
    }
    forall k | 0 <= k < |PreferenceLabels|
      ensures PreferenceValues(st.explorers)[k] == Count(st.explorers, HasPreference(PreferenceLabels[k]))
    {
      PreferenceValuesCount(st.explorers, k);
    }
    PlanValuesTotal(st.entrepreneurs);
    assert Valid(st) ==> Sum(ActionValues(st.log)) == |st.log| by {
      if Valid(st) {
        ActionValuesTotal(st.log);
      }
    }
    forall k | 0 <= k < |ActionLabels| && Valid(st)
      ensures ActionValues(st.log)[k] == Count(st.log, UnderKeyword(k))
    {
      ActionValuesByKeyword(st.log, k);
    }
    Overview(
      |st.users|, Count(st.users, RoleIs("explorador")), Count(st.users, RoleIs("emprendedor")),
      PlanValues(st.entrepreneurs), PreferenceValues(st.explorers), ActionValues(st.log))
  }
}

=== FILE: models.dfy ===
/**
 * The data shapes of the application (the SQLAlchemy models `User`,
 * `Explorador`, `Emprendedor` and `LogAccion`), the store that holds them,
 * and the invariant every route keeps.
 */
module Models {
  import opened Wrappers
  import opened Text
  import opened Tables

  /** A calendar date as `datetime.date` holds it. */
  datatype Date = Date(year: nat, month: nat, day: nat)

  /** Python's `str(date)`: `YYYY-MM-DD`, each part zero-padded. */
  function ShowDate(d: Date): (r: string)
    ensures |r| >= 10
  {
    ZeroPad(ShowNat(d.year), 4) + "-" + ZeroPad(ShowNat(d.month), 2) + "-" + ZeroPad(ShowNat(d.day), 2)
  }

  /** The dates `datetime.date` can hold: years 1 to `MAXYEAR` (9999). */
  predicate InDateRange(d: Date) {
    1 <= d.year <= 9999 && 1 <= d.month <= 12 && 1 <= d.day <= 31
  }

  /**
   * `str(date)` is injective: the text of a date reads back as its year,
   * month and day, so two different dates never print alike and a changed
   * birth date always shows in the edit log.
   */
  lemma ShowDateInjective(d1: Date, d2: Date)
    requires InDateRange(d1) && InDateRange(d2)
    requires ShowDate(d1) == ShowDate(d2)
    ensures d1 == d2
  {
    ShowDateReads(d1);
    ShowDateReads(d2);
  }

  /** The ten characters of `str(date)` split into its padded year, month and day. */
  lemma ShowDateReads(d: Date)
    requires InDateRange(d)
    ensures var r := ShowDate(d);
      && |r| == 10
      && AllDigits(r[..4]) && ReadNat(r[..4]) == d.year
      && AllDigits(r[5..7]) && ReadNat(r[5..7]) == d.month
      && AllDigits(r[8..]) && ReadNat(r[8..]) == d.day
  {
    var y, m, dd := ZeroPad(ShowNat(d.year), 4), ZeroPad(ShowNat(d.month), 2), ZeroPad(ShowNat(d.day), 2);
    ShowNatFits(d.year, 4);
    ShowNatFits(d.month, 2);
    ShowNatFits(d.day, 2);
    ReadPaddedNat(d.year, 4);
    ReadPaddedNat(d.month, 2);
    ReadPaddedNat(d.day, 2);
    var r := ShowDate(d);
    assert r == y + "-" + m + "-" + dd;
    assert r[..4] == y;
    assert r[5..7] == m;
    assert r[8..] == dd;
  }

  /**
   * A salted password digest. The model keeps the password the digest was
   * made from as its identity: verification recomputes nothing and two
   * different passwords never verify against the same digest (an idealised
   * collision-free hash). The salt stands for werkzeug's random salt.
   */
  datatype PasswordHash = PasswordHash(salt: nat, digestOf: string)

  /** Hashing a password with a salt the caller draws. */
  function Hash(salt: nat, password: string): PasswordHash {
    PasswordHash(salt, password)
  }

  /** The password verifies against the digest. */
  predicate CheckPassword(h: PasswordHash, password: string) {
    h.digestOf == password
  }

  /** A digest verifies the password it was made from, and no other. */
  lemma HashVerifies(salt: nat, p: string, q: string)
    ensures CheckPassword(Hash(salt, p), q) <==> p == q
  {
  }

  datatype User = User(id: nat, username: string, email: string, passwordHash: PasswordHash, role: string)

  datatype Explorer = Explorer(
    id: nat, userId: nat,
    primerNombre: string, segundoNombre: string, primerApellido: string, segundoApellido: string,
    fechaNacimiento: Option<Date>, telefono: string, preferencias: string)

  datatype Entrepreneur = Entrepreneur(
    id: nat, userId: nat,
    primerNombre: string, segundoNombre: string, primerApellido: string, segundoApellido: string,
    fechaNacimiento: Option<Date>, telefono: string,
    nombreEmprendimiento: string, nit: string, clasificacion: string, zona: string, ubicacion: string,
    plan: string)

  /**
   * One `LogAccion` row. Its `user_id` and `tipo_entidad` columns are never
   * written by any route and the timestamp is not modelled; the position in
   * the log sequence is the row's place in insertion order.
   */
  datatype LogEntry = LogEntry(entidadId: nat, accion: string, detalles: string)

  /** The database: one table per model and the append-only audit log. */
  datatype Store = Store(
    users: seq<User>, explorers: seq<Explorer>, entrepreneurs: seq<Entrepreneur>, log: seq<LogEntry>)

  const EmptyStore := Store([], [], [], [])

  const RoleExplorer := "Explorador"
  const RoleEntrepreneur := "Emprendedor"
  const RoleAdmin := "Administrador"

  /** The default of `Emprendedor.plan`. */
  const DefaultPlan := "Sin Plan"

  /** The `accion` labels the routes write. */
  const ActionCreate := "Creación"
  const ActionDelete := "Eliminación"
  const ActionEditEntrepreneur := "Edición de Emprendedor"
  const ActionEditExplorer := "Edición de Explorador"

  predicate IsAppAction(a: string) {
    a == ActionCreate || a == ActionDelete || a == ActionEditEntrepreneur || a == ActionEditExplorer
  }

  // Column projections, used as keys of the UNIQUE constraints.
  function UserId(u: User): nat { u.id }
  function Username(u: User): string { u.username }
  function Email(u: User): string { u.email }
  function ExplorerId(e: Explorer): nat { e.id }
  function ExplorerOwner(e: Explorer): nat { e.userId }
  function EntrepreneurId(e: Entrepreneur): nat { e.id }
  function EntrepreneurOwner(e: Entrepreneur): nat { e.userId }
  function Nit(e: Entrepreneur): string { e.nit }

  /** Some user with id `uid` has role `role`. */
  ghost predicate OwnedBy(users: seq<User>, uid: nat, role: string) {
    exists u :: u in users && u.id == uid && u.role == role
  }

  /**
   * What the schema and the routes together keep true: primary keys and the
   * UNIQUE columns (username, email, nit) are unique, every profile belongs
   * to an existing user of the matching role and no user has two profiles of
   * one kind, and the log only holds labels the routes write.
   */
  ghost predicate Valid(st: Store) {
    && UniqueBy(st.users, UserId)
    && UniqueBy(st.users, Username)
    && UniqueBy(st.users, Email)
    && UniqueBy(st.explorers, ExplorerId)
    && UniqueBy(st.explorers, ExplorerOwner)
    && (forall e :: e in st.explorers ==> OwnedBy(st.users, e.userId, RoleExplorer))
    && UniqueBy(st.entrepreneurs, EntrepreneurId)
    && UniqueBy(st.entrepreneurs, EntrepreneurOwner)
    && UniqueBy(st.entrepreneurs, Nit)
    && (forall e :: e in st.entrepreneurs ==> OwnedBy(st.users, e.userId, RoleEntrepreneur))
    && (forall l :: l in st.log ==> IsAppAction(l.accion))
  }

  /** The errors a route can end in. */
  datatype Error =
    | BadRequest         // a required form field is missing (HTTP 400)
    | AlreadyRegistered  // username or email in use
    | InvalidDate        // the birth date does not parse as YYYY-MM-DD
    | NotFound           // `get_or_404` found no row (HTTP 404)
    | BadCredentials     // no user answers to the identifier with that password; the login form is shown again
    | IntegrityError     // the commit broke a UNIQUE constraint (HTTP 500)
    | ServerError        // the handler dereferenced a missing row (HTTP 500)

  /** The store a route leaves behind and what it reports. */
  datatype Outcome<T> = Outcome(store: Store, result: Result<T, Error>)

  /** The submitted form fields. */
  type Form = map<string, string>

  /** A form field, or `default` when the form lacks it. */
  function FormGet(form: Form, key: string, default: string): (r: string)
    ensures key in form ==> r == form[key]
    ensures key !in form ==> r == default
  {
    if key in form then form[key] else default
  }

  /** Python's `str()` of a column value as an f-string renders it. */
  datatype Value = Str(s: string) | NoValue | Day(d: Date)

  function DateValue(d: Option<Date>): Value {
    match d
    case None => NoValue
    case Some(x) => Day(x)
  }

  function Show(v: Value): string {
    match v
    case Str(s) => s
    case NoValue => "None"
    case Day(d) => ShowDate(d)
  }

  /** Finds the user with id `uid` by primary key. */
  function FindUser(users: seq<User>, uid: nat): (r: Option<User>)
    ensures r.Some? ==> r.value in users && r.value.id == uid
    ensures r.None? <==> forall u :: u in users ==> u.id != uid
  {
    match FirstWhere(users, (u: User) => u.id == uid)
    case None => None
    case Some(i) => Some(users[i])
  }

  /** Under unique ids, the user found by id is the one that has it. */
  lemma FindUserUnique(users: seq<User>, i: nat)
    requires i < |users| && UniqueBy(users, UserId)
    ensures FindUser(users, users[i].id) == Some(users[i])
  {
    OnlyRowWith(users, UserId, i);
  }

  /** A new user with a fresh id, username and email keeps the store valid. */
  lemma AddUserValid(st: Store, u: User)
    requires Valid(st)
    requires forall v :: v in st.users ==> v.id != u.id && v.username != u.username && v.email != u.email
    ensures Valid(st.(users := st.users + [u]))
  {
    assert forall i :: 0 <= i < |st.users| ==> st.users[i] in st.users;
    AppendUnique(st.users, u, UserId);
    AppendUnique(st.users, u, Username);
    AppendUnique(st.users, u, Email);
    var st' := st.(users := st.users + [u]);
    forall e | e in st'.explorers
      ensures OwnedBy(st'.users, e.userId, RoleExplorer)
    {
      var v :| v in st.users && v.id == e.userId && v.role == RoleExplorer;
      assert v in st'.users;
    }
    forall e | e in st'.entrepreneurs
      ensures OwnedBy(st'.users, e.userId, RoleEntrepreneur)
    {
      var v :| v in st.users && v.id == e.userId && v.role == RoleEntrepreneur;
      assert v in st'.users;
    }
  }

  /** A user of the explorer role without a profile may get one with a fresh id. */
  lemma AddExplorerValid(st: Store, x: Explorer)
    requires Valid(st)
    requires OwnedBy(st.users, x.userId, RoleExplorer)
    requires forall e :: e in st.explorers ==> e.id != x.id && e.userId != x.userId
    ensures Valid(st.(explorers := st.explorers + [x]))
  {
    assert forall i :: 0 <= i < |st.explorers| ==> st.explorers[i] in st.explorers;
    AppendUnique(st.explorers, x, ExplorerId);
    AppendUnique(st.explorers, x, ExplorerOwner);
  }

  /** A user of the entrepreneur role without a profile may get one with a fresh id and NIT. */
  lemma AddEntrepreneurValid(st: Store, x: Entrepreneur)
    requires Valid(st)
    requires OwnedBy(st.users, x.userId, RoleEntrepreneur)
    requires forall e :: e in st.entrepreneurs ==> e.id != x.id && e.userId != x.userId && e.nit != x.nit
    ensures Valid(st.(entrepreneurs := st.entrepreneurs + [x]))
  {
    assert forall i :: 0 <= i < |st.entrepreneurs| ==> st.entrepreneurs[i] in st.entrepreneurs;
    AppendUnique(st.entrepreneurs, x, EntrepreneurId);
    AppendUnique(st.entrepreneurs, x, EntrepreneurOwner);
    AppendUnique(st.entrepreneurs, x, Nit);
  }

  /** Profiles whose owner is the newest user cannot exist yet: owners have smaller ids. */
  lemma OwnersPrecede(st: Store, uid: nat)
    requires Valid(st)
    requires forall v :: v in st.users ==> v.id < uid
    ensures forall e :: e in st.explorers ==> e.userId < uid
    ensures forall e :: e in st.entrepreneurs ==> e.userId < uid
  {
    forall e | e in st.explorers
      ensures e.userId < uid
    {
      var v :| v in st.users && v.id == e.userId && v.role == RoleExplorer;
    }
    forall e | e in st.entrepreneurs
      ensures e.userId < uid
    {
      var v :| v in st.users && v.id == e.userId && v.role == RoleEntrepreneur;
    }
  }

  /** Appending an entry with one of the application's labels keeps the store valid. */
  lemma AppendLogValid(st: Store, entry: LogEntry)
    requires Valid(st) && IsAppAction(entry.accion)
    ensures Valid(st.(log := st.log + [entry]))
  {
  }
}

=== FILE: registration.dfy ===
/** POST `/register`: the user row, its role profile and the `Creación` audit entry. */
module Registration {
  import opened Wrappers
  import opened Text
  import opened Tables
  import opened Models
  import opened Auth

  /** The form carries the three fields the handler reads with `request.form[...]`. */
  predicate Complete(form: Form) {
    "username" in form && "email" in form && "password" in form
  }

  /** `role` defaults to `Explorador` and is taken as submitted, not stripped. */
  function RoleOf(form: Form): string {
    FormGet(form, "role", RoleExplorer)
  }

  /** The birth date as typed, stripped. */
  function DateText(form: Form): string {
    Strip(FormGet(form, "fecha_nacimiento", ""))
  }

  /** An empty birth date is no date; any other text is what the parser makes of it. */
  function BirthDate(form: Form, parseDate: string -> Option<Date>): Option<Date> {
    if DateText(form) == "" then None else parseDate(DateText(form))
  }

  /** A form field, stripped; a missing field reads as empty. */
  function Field(form: Form, key: string): string {
    Strip(FormGet(form, key, ""))
  }

  function Clashes(username: string, email: string): User -> bool {
    (u: User) => u.username == username || u.email == email
  }

  function NitIs(nit: string): Entrepreneur -> bool {
    (e: Entrepreneur) => e.nit == nit
  }

  /** Some user already has the username or the email. */
  ghost predicate InUse(users: seq<User>, username: string, email: string) {
    exists u :: u in users && (u.username == username || u.email == email)
  }

  function ExplorerFromForm(id: nat, uid: nat, form: Form, fecha: Option<Date>): Explorer {
    Explorer(id, uid,
      Field(form, "primer_nombre"), Field(form, "segundo_nombre"),
      Field(form, "primer_apellido"), Field(form, "segundo_apellido"),
      fecha, Field(form, "telefono"), Field(form, "preferencias"))
  }

  function EntrepreneurFromForm(id: nat, uid: nat, form: Form, fecha: Option<Date>): Entrepreneur {
    Entrepreneur(id, uid,
      Field(form, "primer_nombre_emp"), Field(form, "segundo_nombre_emp"),
      Field(form, "primer_apellido_emp"), Field(form, "segundo_apellido_emp"),
      fecha, Field(form, "telefono_emp"),
      Field(form, "nombre_emprendimiento"), Field(form, "nit"), Field(form, "clasificacion"),
      Field(form, "zona"), Field(form, "ubicacion"), DefaultPlan)
  }

  function CreationDetails(username: string, role: string): string {
    "Se creó el usuario '" + username + "' con rol '" + role + "'."
  }

  /** Past the duplicate check: `after` holds `before`'s users plus the new one, built from the form. */
  ghost predicate UserCommitted(before: Store, after: Store, form: Form, salt: nat)
    requires Complete(form)
  {
    && |after.users| == |before.users| + 1
    && after.users[..|before.users|] == before.users
    && var u := after.users[|before.users|];
    && u.username == Strip(form["username"])
    && u.email == Strip(form["email"])
    && CheckPassword(u.passwordHash, form["password"])
    && u.role == RoleOf(form)
    && forall v :: v in before.users ==> v.id < u.id
  }

  /** Neither profile table nor the log changed. */
  ghost predicate NothingElse(before: Store, after: Store) {
    after.explorers == before.explorers && after.entrepreneurs == before.entrepreneurs && after.log == before.log
  }

  /** Explorer `x` of user `uid` holds, column by column, the stripped form fields the explorer form submits. */
  predicate ExplorerFilledFrom(x: Explorer, uid: nat, form: Form, fecha: Option<Date>) {
    && x.userId == uid && x.fechaNacimiento == fecha
    && x.primerNombre == Field(form, "primer_nombre") && x.segundoNombre == Field(form, "segundo_nombre")
    && x.primerApellido == Field(form, "primer_apellido") && x.segundoApellido == Field(form, "segundo_apellido")
    && x.telefono == Field(form, "telefono") && x.preferencias == Field(form, "preferencias")
  }

  /**
   * Entrepreneur `e` of user `uid` holds, column by column, the stripped
   * form fields the entrepreneur form submits (its personal fields carry the
   * `_emp` suffix) and the default plan.
   */
  predicate EntrepreneurFilledFrom(e: Entrepreneur, uid: nat, form: Form, fecha: Option<Date>) {
    && e.userId == uid && e.fechaNacimiento == fecha
    && e.primerNombre == Field(form, "primer_nombre_emp") && e.segundoNombre == Field(form, "segundo_nombre_emp")
    && e.primerApellido == Field(form, "primer_apellido_emp") && e.segundoApellido == Field(form, "segundo_apellido_emp")
    && e.telefono == Field(form, "telefono_emp")
    && e.nombreEmprendimiento == Field(form, "nombre_emprendimiento") && e.nit == Field(form, "nit")
    && e.clasificacion == Field(form, "clasificacion") && e.zona == Field(form, "zona")
    && e.ubicacion == Field(form, "ubicacion") && e.plan == DefaultPlan
  }

  /**
   * `after` holds `before`'s profiles plus exactly one new profile of user
   * `uid` when the submitted role is `Explorador` or `Emprendedor`, filled
   * from the form, and no new profile for any other role.
   */
  ghost predicate ProfileAdded(before: Store, after: Store, uid: nat, form: Form, fecha: Option<Date>) {
    var role := RoleOf(form);
    && (role == RoleExplorer ==>
      && after.entrepreneurs == before.entrepreneurs
      && |after.explorers| == |before.explorers| + 1
      && after.explorers[..|before.explorers|] == before.explorers
      && ExplorerFilledFrom(after.explorers[|before.explorers|], uid, form, fecha))
    && (role == RoleEntrepreneur ==>
      && after.explorers == before.explorers
      && |after.entrepreneurs| == |before.entrepreneurs| + 1
      && after.entrepreneurs[..|before.entrepreneurs|] == before.entrepreneurs
      && EntrepreneurFilledFrom(after.entrepreneurs[|before.entrepreneurs|], uid, form, fecha))
    && (role != RoleExplorer && role != RoleEntrepreneur ==>
      after.explorers == before.explorers && after.entrepreneurs == before.entrepreneurs)
  }

  /** User `uid` exists with `role` and has no profile yet. */
  ghost predicate ProfileMayBeAdded(st: Store, uid: nat, role: string) {
    && Valid(st)
    && OwnedBy(st.users, uid, role)
    && (forall e :: e in st.explorers ==> e.userId != uid)
    && (forall e :: e in st.entrepreneurs ==> e.userId != uid)
  }

  /** Inserts the explorer profile of user `uid`, with a fresh id. */
  function InsertExplorer(st: Store, uid: nat, form: Form, fecha: Option<Date>): (st': Store)
    ensures st'.users == st.users && st'.entrepreneurs == st.entrepreneurs && st'.log == st.log
    ensures |st'.explorers| == |st.explorers| + 1
    ensures st'.explorers[..|st.explorers|] == st.explorers
    ensures var x := st'.explorers[|st.explorers|];
      && ExplorerFilledFrom(x, uid, form, fecha)
      && forall e :: e in st.explorers ==> e.id < x.id
    ensures ProfileMayBeAdded(st, uid, RoleExplorer) ==> Valid(st')
  {
    var x := ExplorerFromForm(NextKey(st.explorers, ExplorerId), uid, form, fecha);
    assert (st.explorers + [x])[..|st.explorers|] == st.explorers;
    assert forall e :: e in st.explorers ==> e.id < x.id;
    var st' := st.(explorers := st.explorers + [x]);
    assert ProfileMayBeAdded(st, uid, RoleExplorer) ==> Valid(st') by {
      if ProfileMayBeAdded(st, uid, RoleExplorer) {
        AddExplorerValid(st, x);
      }
    }
    st'
  }

  /**
   * Inserts the entrepreneur profile of user `uid`, with a fresh id; the
   * commit fails when another profile already has the submitted NIT.
   */
  function InsertEntrepreneur(st: Store, uid: nat, form: Form, fecha: Option<Date>): (o: Outcome<nat>)
    ensures o.result.Failure? <==> exists e :: e in st.entrepreneurs && e.nit == Field(form, "nit")
    ensures o.result.Failure? ==> o == Outcome(st, Failure(IntegrityError))
    ensures o.result.Success? ==>
      && o.result.value == uid
      && o.store.users == st.users && o.store.explorers == st.explorers && o.store.log == st.log
      && |o.store.entrepreneurs| == |st.entrepreneurs| + 1
      && o.store.entrepreneurs[..|st.entrepreneurs|] == st.entrepreneurs
      && var x := o.store.entrepreneurs[|st.entrepreneurs|];
      && EntrepreneurFilledFrom(x, uid, form, fecha)
      && forall e :: e in st.entrepreneurs ==> e.id < x.id && e.nit != x.nit
    ensures ProfileMayBeAdded(st, uid, RoleEntrepreneur) ==> Valid(o.store)
  {
    var x := EntrepreneurFromForm(NextKey(st.entrepreneurs, EntrepreneurId), uid, form, fecha);
    match FirstWhere(st.entrepreneurs, NitIs(x.nit))
    case Some(j) =>
      assert st.entrepreneurs[j] in st.entrepreneurs;
      Outcome(st, Failure(IntegrityError))
    case None =>
      assert forall e :: e in st.entrepreneurs ==> e.nit != x.nit && e.id < x.id;
      assert (st.entrepreneurs + [x])[..|st.entrepreneurs|] == st.entrepreneurs;
      var st' := st.(entrepreneurs := st.entrepreneurs + [x]);
      assert ProfileMayBeAdded(st, uid, RoleEntrepreneur) ==> Valid(st') by {
        if ProfileMayBeAdded(st, uid, RoleEntrepreneur) {
          AddEntrepreneurValid(st, x);
        }
      }
      Outcome(st', Success(uid))
  }

  /**
   * The part of registration after the user row `uid` is committed: parse
   * the birth date, insert the profile of the role, then append the audit
   * entry. A bad date or a NIT already in use stops it with nothing written.
   */
  function AddProfile(st: Store, uid: nat, username: string, form: Form, parseDate: string -> Option<Date>): (o: Outcome<nat>)
    ensures o.result.Failure? ==> o.store == st
    ensures o.result.Failure? ==> o.result.error == InvalidDate || o.result.error == IntegrityError
    ensures o.result == Failure(InvalidDate) <==> DateText(form) != "" && parseDate(DateText(form)).None?
    ensures o.result == Failure(IntegrityError) <==>
      && (DateText(form) == "" || parseDate(DateText(form)).Some?)
      && RoleOf(form) == RoleEntrepreneur
      && exists e :: e in st.entrepreneurs && e.nit == Field(form, "nit")
    ensures o.result.Success? ==>
      && o.result.value == uid
      && o.store.users == st.users
      && o.store.log == st.log + [LogEntry(uid, ActionCreate, CreationDetails(username, RoleOf(form)))]
    ensures o.result.Success? ==> ProfileAdded(st, o.store, uid, form, BirthDate(form, parseDate))
    ensures ProfileMayBeAdded(st, uid, RoleOf(form)) ==> Valid(o.store)
  {
    var role := RoleOf(form);
    var dateText := DateText(form);
    if dateText != "" && parseDate(dateText).None? then
      Outcome(st, Failure(InvalidDate))
    else
      var fecha := BirthDate(form, parseDate);
      var entry := LogEntry(uid, ActionCreate, CreationDetails(username, role));
      var inserted :=
        if role == RoleExplorer then Outcome(InsertExplorer(st, uid, form, fecha), Success(uid))
        else if role == RoleEntrepreneur then InsertEntrepreneur(st, uid, form, fecha)
        else Outcome(st, Success(uid));
      if inserted.result.Failure? then inserted
      else
        var done := inserted.store.(log := st.log + [entry]);
        assert ProfileMayBeAdded(st, uid, role) ==> Valid(done) by {
          if ProfileMayBeAdded(st, uid, role) {
            assert Valid(inserted.store);
            AppendLogValid(inserted.store, entry);
          }
        }
        Outcome(done, Success(uid))
  }

  /** The duplicate query finds a row exactly when the username or the email is in use. */
  lemma ClashFound(users: seq<User>, username: string, email: string)
    ensures FirstWhere(users, Clashes(username, email)).Some? <==> InUse(users, username, email)
  {
    if FirstWhere(users, Clashes(username, email)).None? {
      forall u | u in users
        ensures !Clashes(username, email)(u)
      {
        var j :| 0 <= j < |users| && users[j] == u;
      }
    }
  }

  /**
   * Commits the new user row, with the next free id, the stripped username
   * and email, the salted digest of the password and the submitted role.
   */
  function CommitUser(st: Store, form: Form, salt: nat): (r: (Store, nat))
    requires Complete(form)
    requires !InUse(st.users, Strip(form["username"]), Strip(form["email"]))
    ensures UserCommitted(st, r.0, form, salt)
    ensures NothingElse(st, r.0)
    ensures r.1 == r.0.users[|st.users|].id
    ensures Valid(st) ==> ProfileMayBeAdded(r.0, r.1, RoleOf(form))
  {
    var username := Strip(form["username"]);
    var email := Strip(form["email"]);
    var uid := NextKey(st.users, UserId);
    var user := User(uid, username, email, Hash(salt, form["password"]), RoleOf(form));
    var committed := st.(users := st.users + [user]);
    assert committed.users[..|st.users|] == st.users;
    assert Valid(st) ==> ProfileMayBeAdded(committed, uid, RoleOf(form)) by {
      if Valid(st) {
        AddUserValid(st, user);
        OwnersPrecede(st, uid);
        assert user in committed.users;
      }
    }
    (committed, uid)
  }

  /**
   * POST `/register`. The user row is committed before the birth date is
   * parsed and before the profile is inserted, so a bad date, or an
   * entrepreneur NIT already in use, leaves the new user without a profile
   * and without an audit entry.
   */
  function Register(st: Store, form: Form, salt: nat, parseDate: string -> Option<Date>): (o: Outcome<nat>)
    ensures !Complete(form) ==> o == Outcome(st, Failure(BadRequest))
    ensures Complete(form) ==>
      (o == Outcome(st, Failure(AlreadyRegistered)) <==> InUse(st.users, Strip(form["username"]), Strip(form["email"])))
    ensures Complete(form) && !InUse(st.users, Strip(form["username"]), Strip(form["email"])) ==>
      && UserCommitted(st, o.store, form, salt)
      && o.result != Failure(AlreadyRegistered) && o.result != Failure(BadRequest)
      && (o.result == Failure(InvalidDate) <==> DateText(form) != "" && parseDate(DateText(form)).None?)
      && (o.result == Failure(IntegrityError) <==>
            && (DateText(form) == "" || parseDate(DateText(form)).Some?)
            && RoleOf(form) == RoleEntrepreneur
            && exists e :: e in st.entrepreneurs && e.nit == Field(form, "nit"))
    ensures o.result.Failure? ==>
      o.result.error in {BadRequest, AlreadyRegistered, InvalidDate, IntegrityError}
    ensures o.result == Failure(InvalidDate) ==> NothingElse(st, o.store)
    ensures o.result == Failure(IntegrityError) ==> NothingElse(st, o.store)
    ensures o.result.Success? ==>
      && Complete(form)
      && o.result.value == o.store.users[|st.users|].id
      && o.store.log == st.log + [LogEntry(o.result.value, ActionCreate, CreationDetails(Strip(form["username"]), RoleOf(form)))]
      && ProfileAdded(st, o.store, o.result.value, form, BirthDate(form, parseDate))
    ensures Valid(st) ==> Valid(o.store)
  {
    if !Complete(form) then Outcome(st, Failure(BadRequest))
    else
      var username := Strip(form["username"]);
      var email := Strip(form["email"]);
      ClashFound(st.users, username, email);
      if FirstWhere(st.users, Clashes(username, email)).Some? then
        Outcome(st, Failure(AlreadyRegistered))
      else
        var (committed, uid) := CommitUser(st, form, salt);
        AddProfile(committed, uid, username, form, parseDate)
  }

  /**
   * A birth date that does not parse leaves the new user committed, with no
   * profile of either kind and no audit entry.
   */
  lemma BadDateLeavesOrphan(st: Store, form: Form, salt: nat, parseDate: string -> Option<Date>)
    requires Valid(st) && Complete(form)
    requires !InUse(st.users, Strip(form["username"]), Strip(form["email"]))
    requires DateText(form) != "" && parseDate(DateText(form)).None?
    ensures var o := Register(st, form, salt, parseDate);
      && o.result == Failure(InvalidDate)
      && |o.store.users| == |st.users| + 1
      && o.store.log == st.log
      && var u := o.store.users[|st.users|];
      && (forall x :: x in o.store.explorers ==> x.userId != u.id)
      && (forall e :: e in o.store.entrepreneurs ==> e.userId != u.id)
  {
    var o := Register(st, form, salt, parseDate);
    assert UserCommitted(st, o.store, form, salt);
    var u := o.store.users[|st.users|];
    OwnersPrecede(st, u.id);
  }

  /**
   * A complete form with a fresh username and email, no birth date and the
   * default role registers an explorer: the user, its profile and the
   * `Creación` entry are all written.
   */
  lemma FreshExplorerRegisters(st: Store, form: Form, salt: nat, parseDate: string -> Option<Date>)
    requires Complete(form) && "role" !in form
    requires !InUse(st.users, Strip(form["username"]), Strip(form["email"]))
    requires DateText(form) == ""
    ensures var o := Register(st, form, salt, parseDate);
      && o.result.Success?
      && |o.store.users| == |st.users| + 1
      && |o.store.explorers| == |st.explorers| + 1
      && ExplorerFilledFrom(o.store.explorers[|st.explorers|], o.result.value, form, None)
      && |o.store.log| == |st.log| + 1
  {
    var o := Register(st, form, salt, parseDate);
    assert RoleOf(form) == RoleExplorer;
    assert BirthDate(form, parseDate) == None;
  }

  /**
   * A user who has just registered can log in with the submitted username
   * and password and is sent to the dashboard of the chosen role, unless an
   * older account uses that username as its email (the login query matches
   * either column and takes the first row).
   */
  lemma RegisterThenLogin(st: Store, form: Form, salt: nat, parseDate: string -> Option<Date>,
                          session: Session, credentials: Form)
    requires Register(st, form, salt, parseDate).result.Success?
    requires forall u :: u in st.users ==> u.email != Strip(form["username"])
    requires "identifier" in credentials && credentials["identifier"] == form["username"]
    requires "password" in credentials && credentials["password"] == form["password"]
    ensures var o := Register(st, form, salt, parseDate);
      var r := Login(o.store, session, credentials);
      && r.LoggedIn?
      && r.session.userId == Some(o.result.value)
      && r.target == RoleTarget(RoleOf(form))
  {
    var o := Register(st, form, salt, parseDate);
    assert !InUse(st.users, Strip(form["username"]), Strip(form["email"]));
    LoginAfterCommit(st, o.store, form, salt, session, credentials);
  }

  /** The newest user answers first to its username when no older user has it as username or email. */
  lemma LoginAfterCommit(before: Store, after: Store, form: Form, salt: nat, session: Session, credentials: Form)
    requires Complete(form) && UserCommitted(before, after, form, salt)
    requires forall u :: u in before.users ==> u.username != Strip(form["username"]) && u.email != Strip(form["username"])
    requires "identifier" in credentials && credentials["identifier"] == form["username"]
    requires "password" in credentials && credentials["password"] == form["password"]
    ensures var r := Login(after, session, credentials);
      && r.LoggedIn?
      && r.session.userId == Some(after.users[|before.users|].id)
      && r.target == RoleTarget(RoleOf(form))
  {
    var username := Strip(form["username"]);
    StripIdempotent(form["username"]);
    var n := |before.users|;
    var users := after.users;
    forall j | 0 <= j < n
      ensures !Identifies(users[j], username)
    {
      assert users[j] == before.users[j] && before.users[j] in before.users;
    }
    assert FirstMatch(users, username, n);
    assert FirstWhere(users, IdentifiedBy(username)) == Some(n);
  }
}

=== FILE: tables.dfy ===
/**
 * Relational tables as sequences of rows in primary-key order, with the few
 * queries the application issues: `filter(...).first()`, `query.get(id)`,
 * `count()`, a DELETE, and SQLite's choice of the next row id.
 */
module Tables {
  import opened Wrappers

  /** No two rows agree on column `f`: a UNIQUE constraint or a primary key. */
  ghost predicate UniqueBy<T, K>(t: seq<T>, f: T -> K) {
    forall i, j :: 0 <= i < j < |t| ==> f(t[i]) != f(t[j])
  }

  /**
   * Index of the first row satisfying `p` in table order. This stands for
   * `query.filter(p).first()`; the database promises no row order, and the
   * model takes the order in which rows were inserted.
   */
  function FirstWhere<T>(t: seq<T>, p: T -> bool): (r: Option<nat>)
    ensures r.Some? ==> r.value < |t| && p(t[r.value])
    ensures r.Some? ==> forall j :: 0 <= j < r.value ==> !p(t[j])
    ensures r.None? <==> forall j :: 0 <= j < |t| ==> !p(t[j])
  {
    if |t| == 0 then None
    else if p(t[0]) then Some(0)
    else match FirstWhere(t[1..], p)
      case None => None
      case Some(i) => Some(i + 1)
  }

  /** The rows satisfying `p`, in table order: what survives `DELETE ... WHERE !p`. */
  function Filter<T(!new)>(t: seq<T>, p: T -> bool): (r: seq<T>)
    ensures |r| <= |t|
    ensures forall x :: x in r <==> x in t && p(x)
  {
    if |t| == 0 then [] else (if p(t[0]) then [t[0]] else []) + Filter(t[1..], p)
  }

  /** Deleting rows never breaks a UNIQUE constraint. */
  lemma {:induction false} FilterUnique<T(!new), K>(t: seq<T>, p: T -> bool, f: T -> K)
    requires UniqueBy(t, f)
    ensures UniqueBy(Filter(t, p), f)
    decreases |t|
  {
    if |t| > 0 {
      var rest := Filter(t[1..], p);
      assert UniqueBy(t[1..], f) by {
        forall i, j | 0 <= i < j < |t| - 1
          ensures f(t[1..][i]) != f(t[1..][j])
        {
          assert t[1..][i] == t[i + 1] && t[1..][j] == t[j + 1];
        }
      }
      FilterUnique(t[1..], p, f);
      if p(t[0]) {
        var r := [t[0]] + rest;
        forall i, j | 0 <= i < j < |r|
          ensures f(r[i]) != f(r[j])
        {
          if i == 0 {
            assert r[j] in t[1..];
            var j' :| 0 <= j' < |t[1..]| && t[1..][j'] == r[j];
            assert t[j' + 1] == r[j];
          } else {
            assert r[i] == rest[i - 1] && r[j] == rest[j - 1];
          }
        }
      }
    }
  }

  /** The number of rows of `t` that satisfy `p`. */
  function Count<T>(t: seq<T>, p: T -> bool): (n: nat)
    ensures n <= |t|
    ensures n == 0 <==> forall i :: 0 <= i < |t| ==> !p(t[i])
    ensures n == |t| <==> forall i :: 0 <= i < |t| ==> p(t[i])
  {
    if |t| == 0 then 0
    else
      var init := t[..|t| - 1];
      assert forall i :: 0 <= i < |init| ==> init[i] == t[i];
      Count(init, p) + (if p(t[|t| - 1]) then 1 else 0)
  }

  /** Appending one row adds one to the count exactly when the row qualifies. */
  lemma CountAppend<T>(t: seq<T>, x: T, p: T -> bool)
    ensures Count(t + [x], p) == Count(t, p) + (if p(x) then 1 else 0)
  {
    assert (t + [x])[..|t|] == t;
  }

  /** Two conditions no row meets together count at most all the rows between them. */
  lemma {:induction false} CountDisjoint<T>(t: seq<T>, p: T -> bool, q: T -> bool)
    requires forall i :: 0 <= i < |t| ==> !(p(t[i]) && q(t[i]))
    ensures Count(t, p) + Count(t, q) <= |t|
    decreases |t|
  {
    if |t| > 0 {
      var m := |t| - 1;
      assert t == t[..m] + [t[m]];
      CountAppend(t[..m], t[m], p);
      CountAppend(t[..m], t[m], q);
      CountDisjoint(t[..m], p, q);
    }
  }

  /**
   * The id SQLite gives a new row of a table without AUTOINCREMENT: one more
   * than the largest id in use, or 1 for an empty table.
   */
  function NextKey<T>(t: seq<T>, key: T -> nat): (k: nat)
    ensures k >= 1
    ensures forall i :: 0 <= i < |t| ==> key(t[i]) < k
    ensures k == 1 || exists i :: 0 <= i < |t| && key(t[i]) == k - 1
  {
    if |t| == 0 then 1
    else
      var init := t[..|t| - 1];
      assert forall i :: 0 <= i < |init| ==> init[i] == t[i];
      var k' := NextKey(init, key);
      if key(t[|t| - 1]) < k' then k' else key(t[|t| - 1]) + 1
  }

  /** A row whose key is new keeps the key column unique. */
  lemma AppendUnique<T, K>(t: seq<T>, x: T, f: T -> K)
    requires UniqueBy(t, f)
    requires forall i :: 0 <= i < |t| ==> f(t[i]) != f(x)
    ensures UniqueBy(t + [x], f)
  {
    var r := t + [x];
    forall i, j | 0 <= i < j < |r|
      ensures f(r[i]) != f(r[j])
    {
      assert r[i] == t[i];
    }
  }

  /** Under a UNIQUE column, row `i` is the only row with its value. */
  lemma OnlyRowWith<T, K>(t: seq<T>, f: T -> K, i: nat)
    requires UniqueBy(t, f) && i < |t|
    ensures forall j :: 0 <= j < |t| && j != i ==> f(t[j]) != f(t[i])
  {
    forall j | 0 <= j < |t| && j != i
      ensures f(t[j]) != f(t[i])
    {
      if j > i {
        assert f(t[i]) != f(t[j]);
      }
    }
  }

  /** Replacing a row by one that differs from every other row on `f` keeps `f` unique. */
  lemma UpdateUnique<T, K>(t: seq<T>, i: nat, x: T, f: T -> K)
    requires i < |t| && UniqueBy(t, f)
    requires forall j :: 0 <= j < |t| && j != i ==> f(t[j]) != f(x)
    ensures UniqueBy(t[i := x], f)
  {
  }
}

=== FILE: text.dfy ===
/**
 * The string primitives the application leans on: Python's `str.strip()`,
 * `", ".join(...)`, `str(n)` for the numbers inside a date, `repr(str)`, and
 * SQLite's `LIKE '%p%'` (ASCII case-insensitive substring search).
 */
module Text {
  import opened Wrappers

  /** Python's `str.isspace()` for one character: the characters `strip()` removes. */
  predicate IsPySpace(c: char) {
    || c == ' '
    || ('\t' <= c <= '\r')
    || ('\U{1c}' <= c <= '\U{1f}')
    || c == '\U{85}' || c == '\U{a0}' || c == '\U{1680}'
    || ('\U{2000}' <= c <= '\U{200a}')
    || c == '\U{2028}' || c == '\U{2029}' || c == '\U{202f}' || c == '\U{205f}'
    || c == '\U{3000}'
  }

  ghost predicate AllSpace(s: string) {
    forall i :: 0 <= i < |s| ==> IsPySpace(s[i])
  }

  /** Length of the whitespace run that opens `s`. */
  function LeadingSpace(s: string): (n: nat)
    ensures n <= |s|
    ensures AllSpace(s[..n])
    ensures n < |s| ==> !IsPySpace(s[n])
  {
    if |s| > 0 && IsPySpace(s[0]) then
      var n := 1 + LeadingSpace(s[1..]);
      assert s[..n] == [s[0]] + s[1..][..n - 1];
      n
    else 0
  }

  /** Python's `s.strip()`: `s` without its leading and trailing whitespace. */
  function Strip(s: string): (r: string)
    ensures |r| <= |s|
    ensures |r| == 0 || (!IsPySpace(r[0]) && !IsPySpace(r[|r| - 1]))
    decreases |s|
  {
    if |s| > 0 && IsPySpace(s[0]) then Strip(s[1..])
    else if |s| > 0 && IsPySpace(s[|s| - 1]) then Strip(s[..|s| - 1])
    else s
  }

  /**
   * What `strip()` removes is whitespace only: the result is the part of `s`
   * between its opening whitespace run and a closing whitespace run.
   */
  lemma {:induction false} StripSlice(s: string)
    ensures StripsToSlice(s)
    decreases |s|
  {
    if |s| > 0 && IsPySpace(s[0]) {
      StripSlice(s[1..]);
      StripSliceFront(s);
    } else if |s| > 0 && IsPySpace(s[|s| - 1]) {
      StripSlice(s[..|s| - 1]);
      StripSliceBack(s);
    }
  }

  /** `Strip(s)` is `s[a..a + |Strip(s)|]` for the opening run length `a`, with whitespace around it. */
  ghost predicate StripsToSlice(s: string) {
    var a := LeadingSpace(s); var r := Strip(s);
    && a + |r| <= |s| && s[a..a + |r|] == r
    && AllSpace(s[..a]) && AllSpace(s[a + |r|..])
  }

  /** The step of `StripSlice` that drops an opening whitespace character. */
  lemma StripSliceFront(s: string)
    requires |s| > 0 && IsPySpace(s[0]) && StripsToSlice(s[1..])
    ensures StripsToSlice(s)
  {
    var r := Strip(s);
    var t := s[1..];
    var a' := LeadingSpace(t);
    assert t[a'..a' + |r|] == s[1 + a'..1 + a' + |r|];
    assert t[a' + |r|..] == s[1 + a' + |r|..];
  }

  /** The step of `StripSlice` that drops a closing whitespace character. */
  lemma StripSliceBack(s: string)
    requires |s| > 0 && !IsPySpace(s[0]) && IsPySpace(s[|s| - 1]) && StripsToSlice(s[..|s| - 1])
    ensures StripsToSlice(s)
  {
    var r := Strip(s);
    var t := s[..|s| - 1];
    assert LeadingSpace(t) == 0;
    assert t[..|r|] == s[..|r|];
    assert s[|r|..] == t[|r|..] + [s[|s| - 1]];
  }

  /** A string with no whitespace at either end is its own strip. */
  lemma StripKeeps(s: string)
    requires |s| == 0 || (!IsPySpace(s[0]) && !IsPySpace(s[|s| - 1]))
    ensures Strip(s) == s
  {
  }

  /** Stripping twice strips nothing more. */
  lemma StripIdempotent(s: string)
    ensures Strip(Strip(s)) == Strip(s)
  {
    StripKeeps(Strip(s));
  }

  /** Python's `sep.join(parts)`. */
  function Join(parts: seq<string>, sep: string): (r: string)
    ensures |parts| == 0 ==> r == ""
    ensures |parts| == 1 ==> r == parts[0]
    ensures |parts| > 0 ==> |parts[0]| <= |r| && r[..|parts[0]|] == parts[0]
  {
    if |parts| == 0 then ""
    else if |parts| == 1 then parts[0]
    else
      var rest := sep + Join(parts[1..], sep);
      assert (parts[0] + rest)[..|parts[0]|] == parts[0];
      parts[0] + rest
  }

  /** Joining one more part adds the separator and that part at the end. */
  lemma {:induction false} JoinAppend(parts: seq<string>, p: string, sep: string)
    requires |parts| > 0
    ensures Join(parts + [p], sep) == Join(parts, sep) + sep + p
    decreases |parts|
  {
    var all := parts + [p];
    if |parts| > 1 {
      assert all[1..] == parts[1..] + [p];
      JoinAppend(parts[1..], p, sep);
      assert Join(all, sep) == parts[0] + (sep + (Join(parts[1..], sep) + sep + p));
    }
  }

  // ---------------------------------------------------------------------------
  // Substring search and SQLite's LIKE
  // ---------------------------------------------------------------------------

  predicate IsPrefix(p: string, s: string) {
    |p| <= |s| && s[..|p|] == p
  }

  /** `p` occurs somewhere inside `s`. */
  predicate Contains(s: string, p: string)
    decreases |s|
  {
    IsPrefix(p, s) || (|s| > 0 && Contains(s[1..], p))
  }

  /** An occurrence at offset `i` makes `Contains` true. */
  lemma {:induction false} ContainsAt(s: string, p: string, i: nat)
    requires i + |p| <= |s| && s[i..i + |p|] == p
    ensures Contains(s, p)
    decreases i
  {
    if i > 0 {
      assert s[1..][i - 1..i - 1 + |p|] == s[i..i + |p|];
      ContainsAt(s[1..], p, i - 1);
    }
  }

  /**
   * If the `k`-th character of `p` does not occur among the first `m`
   * characters of `s`, and every placement of `p` inside `s` would put that
   * character there, then `p` does not occur in `s`.
   */
  lemma {:induction false} MissingCharRefutes(s: string, p: string, k: nat, m: nat)
    requires k < |p| && m <= |s|
    requires |s| - |p| + k < m
    requires p[k] !in s[..m]
    ensures !Contains(s, p)
    decreases |s|
  {
    if |p| <= |s| {
      assert s[..m][k] == s[k];
      assert s[..|p|][k] == s[k];
    }
    if |s| > 0 {
      var m' := if m > 0 then m - 1 else 0;
      assert s[1..][..m'] == s[1..m'+1];
      assert forall c :: c in s[1..m'+1] ==> c in s[..m];
      MissingCharRefutes(s[1..], p, k, m');
    }
  }

  /** SQLite's `lower()` and LIKE folding: ASCII letters only. */
  function LowerAscii(c: char): char {
    if 'A' <= c <= 'Z' then (c as int + 32) as char else c
  }

  function UpperAscii(c: char): char {
    if 'a' <= c <= 'z' then (c as int - 32) as char else c
  }

  /** SQLite's `lower(s)` without the ICU extension. */
  function LowerAll(s: string): (r: string)
    ensures |r| == |s|
    ensures forall i :: 0 <= i < |s| ==> r[i] == LowerAscii(s[i])
  {
    seq(|s|, i requires 0 <= i < |s| => LowerAscii(s[i]))
  }

  lemma LowerAllAppend(a: string, b: string)
    ensures LowerAll(a + b) == LowerAll(a) + LowerAll(b)
  {
  }

  /** SQLite's `s LIKE '%p%'` for a pattern `p` without wildcards. */
  predicate LikeContains(s: string, p: string) {
    Contains(LowerAll(s), LowerAll(p))
  }

  /** A string is LIKE-contained in itself and in any string it opens. */
  lemma LikeContainsPrefix(p: string, rest: string)
    ensures LikeContains(p + rest, p)
  {
    LowerAllAppend(p, rest);
    assert LowerAll(p + rest)[..|p|] == LowerAll(p);
  }

  /** A string is LIKE-contained in any string that opens with it. */
  lemma OpensWith(s: string, p: string)
    requires |p| <= |s| && s[..|p|] == p
    ensures LikeContains(s, p)
  {
    assert s == p + s[|p|..];
    LikeContainsPrefix(p, s[|p|..]);
  }

  /**
   * The case-folded form of `MissingCharRefutes`: when neither case of the
   * `k`-th pattern character occurs among the first `m` characters of `s`,
   * `s LIKE '%p%'` is false.
   */
  lemma LikeMissingCharRefutes(s: string, p: string, k: nat, m: nat)
    requires k < |p| && m <= |s|
    requires |s| - |p| + k < m
    requires LowerAscii(p[k]) !in s[..m] && UpperAscii(LowerAscii(p[k])) !in s[..m]
    ensures !LikeContains(s, p)
  {
    var d := LowerAscii(p[k]);
    var ls := LowerAll(s);
    forall i | 0 <= i < m
      ensures ls[i] != d
    {
      assert s[..m][i] == s[i];
    }
    assert LowerAll(p)[k] == d;
    MissingCharRefutes(ls, LowerAll(p), k, m);
  }

  /** `LikeMissingCharRefutes` over the whole of `s`. */
  lemma LacksChar(s: string, p: string, k: nat)
    requires k < |p|
    requires LowerAscii(p[k]) !in s && UpperAscii(LowerAscii(p[k])) !in s
    ensures !LikeContains(s, p)
  {
    assert s[..|s|] == s;
    LikeMissingCharRefutes(s, p, k, |s|);
  }

  // ---------------------------------------------------------------------------
  // Decimal numerals, as Python prints the parts of a date
  // ---------------------------------------------------------------------------

  predicate IsDigit(c: char) {
    '0' <= c <= '9'
  }

  ghost predicate AllDigits(s: string) {
    forall i :: 0 <= i < |s| ==> IsDigit(s[i])
  }

  function DigitChar(d: nat): (c: char)
    requires d < 10
    ensures IsDigit(c)
  {
    ('0' as int + d) as char
  }

  /** Decimal numeral of `n` without leading zeros (`str(n)`). */
  function ShowNat(n: nat): (r: string)
    ensures |r| >= 1 && AllDigits(r)
    decreases n
  {
    if n < 10 then [DigitChar(n)] else ShowNat(n / 10) + [DigitChar(n % 10)]
  }

  /** The value of a decimal numeral; the partner of `ShowNat`. */
  function ReadNat(s: string): nat
    requires AllDigits(s)
  {
    if |s| == 0 then 0 else 10 * ReadNat(s[..|s| - 1]) + (s[|s| - 1] as int - '0' as int)
  }

  /** `s` left-padded with zeros to `width` characters (the `%0Nd` conversion). */
  function ZeroPad(s: string, width: nat): (r: string)
    ensures |r| == if |s| >= width then |s| else width
    ensures AllDigits(s) ==> AllDigits(r)
  {
    if |s| >= width then s else seq(width - |s|, _ => '0') + s
  }

  lemma {:induction false} ReadShowNat(n: nat)
    ensures ReadNat(ShowNat(n)) == n
    decreases n
  {
    if n >= 10 {
      var s := ShowNat(n);
      assert s[..|s| - 1] == ShowNat(n / 10);
      ReadShowNat(n / 10);
    }
  }

  lemma {:induction false} ReadLeadingZeros(z: nat, s: string)
    requires AllDigits(s)
    ensures AllDigits(seq(z, _ => '0') + s)
    ensures ReadNat(seq(z, _ => '0') + s) == ReadNat(s)
    decreases |s|
  {
    var t := seq(z, _ => '0') + s;
    if |s| == 0 {
      assert t == seq(z, _ => '0');
      ReadZeros(z);
    } else {
      assert t[..|t| - 1] == seq(z, _ => '0') + s[..|s| - 1];
      ReadLeadingZeros(z, s[..|s| - 1]);
    }
  }

  lemma {:induction false} ReadZeros(z: nat)
    ensures ReadNat(seq(z, _ => '0')) == 0
    decreases z
  {
    if z > 0 {
      assert seq(z, _ => '0')[..z - 1] == seq(z - 1, _ => '0');
      ReadZeros(z - 1);
    }
  }

  /** Padding never changes the number a numeral denotes: `%04d` round-trips. */
  lemma ReadPaddedNat(n: nat, width: nat)
    ensures AllDigits(ZeroPad(ShowNat(n), width))
    ensures ReadNat(ZeroPad(ShowNat(n), width)) == n
  {
    var s := ShowNat(n);
    ReadShowNat(n);
    if |s| < width {
      ReadLeadingZeros(width - |s|, s);
    }
  }

  function Pow10(w: nat): nat {
    if w == 0 then 1 else 10 * Pow10(w - 1)
  }

  /** A number below `10^w` prints in at most `w` digits, so `%0wd` pads it to exactly `w`. */
  lemma {:induction false} ShowNatFits(n: nat, w: nat)
    requires 1 <= w && n < Pow10(w)
    ensures |ShowNat(n)| <= w
    ensures |ZeroPad(ShowNat(n), w)| == w
    decreases w
  {
    if n >= 10 {
      assert w >= 2;
      ShowNatFits(n / 10, w - 1);
    }
  }

  // ---------------------------------------------------------------------------
  // Python's repr(str)
  // ---------------------------------------------------------------------------

  function HexDigit(d: nat): char
    requires d < 16
  {
    if d < 10 then DigitChar(d) else ('a' as int + d - 10) as char
  }

  /**
   * The quote `repr` puts around `s`: a double quote when `s` holds a single
   * quote and no double quote, a single quote otherwise.
   */
  function ReprQuote(s: string): char {
    if '\'' in s && '"' !in s then '"' else '\''
  }

  /** The characters `repr` writes for `c` inside a literal delimited by `q`. */
  function ReprChar(c: char, q: char): string {
    if c == q || c == '\\' then ['\\', c]
    else if c == '\t' then "\\t"
    else if c == '\n' then "\\n"
    else if c == '\r' then "\\r"
    else if c < ' ' || c == '\U{7f}' then
      ['\\', 'x', HexDigit(c as int / 16), HexDigit(c as int % 16)]
    else [c]
  }

  /** A character `repr` writes unchanged whatever the quote. */
  predicate PlainReprChar(c: char) {
    ' ' <= c && c != '\U{7f}' && c != '\'' && c != '"' && c != '\\'
  }

  /** A quote character other than the delimiter `q`, which `repr` writes unescaped. */
  predicate OtherQuote(c: char, q: char) {
    (c == '\'' || c == '"') && c != q
  }

  function ReprBody(s: string, q: char): (r: string)
    requires q == '\'' || q == '"'
    ensures |r| >= |s|
    ensures (forall i :: 0 <= i < |s| ==> PlainReprChar(s[i]) || OtherQuote(s[i], q)) ==> r == s
  {
    if |s| == 0 then "" else ReprChar(s[0], q) + ReprBody(s[1..], q)
  }

  /** The value of a lower-case hexadecimal digit. */
  function HexValue(c: char): (r: Option<nat>)
    ensures r.Some? ==> r.value < 16
  {
    if '0' <= c <= '9' then Some(c as int - '0' as int)
    else if 'a' <= c <= 'f' then Some(c as int - 'a' as int + 10)
    else None
  }

  /** The characters a literal may only hold as a `\xHH` escape. */
  predicate HexEscaped(c: char) {
    (c < ' ' && c != '\t' && c != '\n' && c != '\r') || c == '\U{7f}'
  }

  /**
   * Reads the inside of a Python string literal delimited by `q` back.
   * `\t`, `\n`, `\r`, `\\`, `\q` and `\xHH` (lower-case digits, for a
   * character that has no other spelling) each stand for one character, and
   * every other character for itself. A raw `q`, a raw control character, a
   * raw DEL, or any other escape makes the text no literal body: None.
   */
  function ReadReprBody(t: string, q: char): Option<string>
    decreases |t|
  {
    if |t| == 0 then Some("")
    else if t[0] == q || t[0] < ' ' || t[0] == '\U{7f}' then None
    else if t[0] != '\\' then Prepend(t[0], ReadReprBody(t[1..], q))
    else if |t| < 2 then None
    else if t[1] == 't' then Prepend('\t', ReadReprBody(t[2..], q))
    else if t[1] == 'n' then Prepend('\n', ReadReprBody(t[2..], q))
    else if t[1] == 'r' then Prepend('\r', ReadReprBody(t[2..], q))
    else if t[1] == '\\' || t[1] == q then Prepend(t[1], ReadReprBody(t[2..], q))
    else if t[1] == 'x' && |t| >= 4 && HexValue(t[2]).Some? && HexValue(t[3]).Some?
            && HexEscaped((16 * HexValue(t[2]).value + HexValue(t[3]).value) as char) then
      Prepend((16 * HexValue(t[2]).value + HexValue(t[3]).value) as char, ReadReprBody(t[4..], q))
    else None
  }

  function Prepend(c: char, rest: Option<string>): Option<string> {
    match rest
    case None => None
    case Some(s) => Some([c] + s)
  }

  lemma HexDigitValue(d: nat)
    requires d < 16
    ensures HexValue(HexDigit(d)) == Some(d)
  {
  }

  lemma HexValueDigit(c: char)
    requires HexValue(c).Some?
    ensures HexDigit(HexValue(c).value) == c
  {
  }

  /** Reading back the escape of one character gives that character. */
  lemma ReadReprChar(c: char, q: char, rest: string)
    requires q == '\'' || q == '"'
    ensures ReadReprBody(ReprChar(c, q) + rest, q) == Prepend(c, ReadReprBody(rest, q))
  {
    var t := ReprChar(c, q) + rest;
    if c == q || c == '\\' || c == '\t' || c == '\n' || c == '\r' {
      assert t[2..] == rest;
    } else if c < ' ' || c == '\U{7f}' {
      var hi, lo := c as int / 16, c as int % 16;
      HexDigitValue(hi);
      HexDigitValue(lo);
      assert t[4..] == rest;
      assert (16 * hi + lo) as char == c;
    } else {
      assert t[1..] == rest;
    }
  }

  /** The escaped body reads back as the text it escapes. */
  lemma {:induction false} ReadReprBodyRoundTrip(s: string, q: char)
    requires q == '\'' || q == '"'
    ensures ReadReprBody(ReprBody(s, q), q) == Some(s)
    decreases |s|
  {
    if |s| > 0 {
      ReadReprChar(s[0], q, ReprBody(s[1..], q));
      ReadReprBodyRoundTrip(s[1..], q);
      assert [s[0]] + s[1..] == s;
    }
  }

  /**
   * The reader accepts only what `repr` writes: a body that reads back as
   * some text is exactly the escaped form of that text.
   */
  lemma {:induction false} ReadReprBodyExact(t: string, q: char)
    requires q == '\'' || q == '"'
    requires ReadReprBody(t, q).Some?
    ensures ReprBody(ReadReprBody(t, q).value, q) == t
    decreases |t|
  {
    if |t| > 0 {
      var s := ReadReprBody(t, q).value;
      var k := ReadStep(t, q);
      ReadReprBodyExact(t[k..], q);
      assert s[1..] == ReadReprBody(t[k..], q).value;
      assert ReprBody(s, q) == ReprChar(s[0], q) + ReprBody(s[1..], q);
      assert t == t[..k] + t[k..];
    }
  }

  /**
   * The first step of the reader: it consumes `k` characters for the first
   * character of the text, and those are exactly that character's escape.
   */
  lemma ReadStep(t: string, q: char) returns (k: nat)
    requires q == '\'' || q == '"'
    requires |t| > 0 && ReadReprBody(t, q).Some?
    ensures 1 <= k <= |t|
    ensures var s := ReadReprBody(t, q).value;
      && |s| > 0
      && ReadReprBody(t[k..], q).Some? && s[1..] == ReadReprBody(t[k..], q).value
      && t[..k] == ReprChar(s[0], q)
  {
    if t[0] != '\\' {
      k := 1;
    } else if t[1] == 'x' {
      k := 4;
      var a, b := HexValue(t[2]).value, HexValue(t[3]).value;
      var c := (16 * a + b) as char;
      HexValueDigit(t[2]);
      HexValueDigit(t[3]);
      assert c as int / 16 == a && c as int % 16 == b;
      assert t[..4] == ['\\', 'x', t[2], t[3]];
    } else {
      k := 2;
      assert t[..2] == ['\\', t[1]];
    }
  }

  /**
   * Python's `repr(s)` for a string: the body between the quotes reads back
   * as `s` under the strict reader, and text with no character that needs
   * escaping (the other quote needs none) is written unchanged between the
   * quotes.
   */
  function PyRepr(s: string): (r: string)
    ensures |r| >= |s| + 2
    ensures r[0] == r[|r| - 1] == ReprQuote(s)
    ensures ReadReprBody(r[1..|r| - 1], ReprQuote(s)) == Some(s)
    ensures (forall i :: 0 <= i < |s| ==> PlainReprChar(s[i]) || OtherQuote(s[i], ReprQuote(s))) ==>
      r == [ReprQuote(s)] + s + [ReprQuote(s)]
  {
    var q := ReprQuote(s);
    var body := ReprBody(s, q);
    ReadReprBodyRoundTrip(s, q);
    assert ([q] + body + [q])[1..|body| + 1] == body;
    [q] + body + [q]
  }

  /**
   * `PyRepr`'s contract leaves one result only: any text between the right
   * quotes whose body reads back as `s` is `PyRepr(s)`.
   */
  lemma PyReprPinned(s: string, r: string)
    requires |r| >= 2 && r[0] == r[|r| - 1] == ReprQuote(s)
    requires ReadReprBody(r[1..|r| - 1], ReprQuote(s)) == Some(s)
    ensures r == PyRepr(s)
  {
    var q, b := ReprQuote(s), r[1..|r| - 1];
    ReadReprBodyExact(b, q);
    Unwrap(r);
    assert PyRepr(s) == [q] + ReprBody(s, q) + [q];
  }

  lemma Unwrap(r: string)
    requires |r| >= 2
    ensures r == [r[0]] + r[1..|r| - 1] + [r[|r| - 1]]
  {
  }

  /** Python's `str((a, b))` for a pair of strings. */
  function PyPairRepr(a: string, b: string): string {
    "(" + PyRepr(a) + ", " + PyRepr(b) + ")"
  }
}

=== FILE: wrappers.dfy ===
/** Failure-carrying datatypes used by every operation of the model. */
module Wrappers {

  /** A value that may be missing: a nullable column, an absent form field. */
  datatype Option<+T> = None | Some(value: T)

  /** The outcome of a request handler: a value, or the error the handler reports. */
  datatype Result<+R, +E> = Success(value: R) | Failure(error: E)
}
